=== FILE: README.md ===
# Location icon generator, modelled in Dafny

`generate-location-icons.py` draws a 64 by 64 PNG icon for every location
named in the `icon-names.txt` manifest of each category folder under
`icons-pathfinding/`. Each category has a style: a colour, a shape and a
short symbol code. An unknown category falls back to a grey circle marked
`???`. An icon whose file already exists is skipped. The script reports how
many icons each folder generated and the totals over all folders.

This project models that script as pure functions over immutable data:

- `Results`: the `Option` and `Result` wrappers. A missing manifest is
  `None`; an exception raised by `int()` is `ValueError`.
- `Text`: the Python string primitives the script relies on: `isspace`,
  `strip()`, `lstrip(c)`, clamped slicing and `in` on strings.
- `Colors`: `hex_to_rgb`, with `int(field, 16)` for the fields it can
  produce, and the `#rrggbb` printer that inverts it.
- `Styles`: the `CATEGORY_STYLES` table and the style lookup with its
  fallback.
- `Paths`: POSIX `os.path.join` and `os.path.basename`.
- `Manifest`: reading names from a manifest's text, and the name
  normalisation `name.replace('.png', '')`.
- `Generation`: `generate_icons_for_category`. The file system is the set
  of files that exist. A resolver, given as a parameter, says which file a
  path names, so `x/./y`, a symbolic link and its target, or two spellings
  on a case-insensitive volume can be one file. Drawing and saving an
  icon is an oracle that says, per manifest position, whether it succeeds.
- `Runner`: `main`. The directory listing is a sequence of entries. Each
  entry has a name, a directory flag and, when the folder has one, the
  text of its manifest.
- `Geometry`: the drawing calls of `draw_icon`, the shape dispatch and the
  three-character label.
- `Scenario`: one concrete run with two folders, worked end to end.

Points where the script's comments or names and its code part ways, and
where the code treats like things unlike; the model follows the code:

- The comment at line 138 says `.png` is removed "if present", which
  reads as a trailing extension. The code at line 139 removes every
  occurrence of `.png`, anywhere in the name, in one left-to-right pass.
  `Manifest.Normalize` does the same. One pass can leave a `.png` behind
  (`..pngpng` becomes `.png`), so normalising is not idempotent
  (`Manifest.NormalizeCanLeavePng`).
- The `star` branch (lines 61-70) computes an angle at line 65 that it
  never uses. Lines 67 and 68 compute x and y with the same expression
  around the same centre, so every vertex has equal coordinates. All ten
  vertices lie on the diagonal, and the polygon encloses no area
  (`Geometry.StarOnDiagonal`).
- A known category's colour is converted to an RGB tuple. The fallback's
  colour stays the hex string `#9e9e9e`. `Colors.Color` keeps both forms
  apart, and `Styles.FallbackVersusOther` states the difference.
- `int(field, 16)` skips a different set of whitespace than `str.strip()`.
  Below U+0080 it skips only tab, line feed, vertical tab, form feed,
  carriage return and space, while `str.isspace` also counts the
  separators U+001C to U+001F. From U+0080 on the two agree.
  `Colors.ParseField` follows `int()` (`Colors.StripShortKeepsSeparator`).

## Model

| member | source | states |
|---|---|---|
| Text.Strip | generate-location-icons.py:133 | `line.strip()` leaves no whitespace at either end, is empty exactly when the line is all whitespace, and leaves an already stripped line unchanged |
| Text.IsSpaceTable | generate-location-icons.py:133 | the whitespace `strip()` removes is exactly the 29 characters Python's `str.isspace` accepts: tab to carriage return, U+001C to U+001F, space, U+0085, U+00A0, U+1680, U+2000 to U+200A, U+2028, U+2029, U+202F, U+205F and U+3000 |
| Text.StripIsSlice | generate-location-icons.py:133 | `line.strip()` is a slice of the line with only whitespace before and after it, so it removes nothing but surrounding whitespace |
| Text.LStrip | generate-location-icons.py:111 | `lstrip('#')` returns a suffix of the colour, everything it removes is `#`, and the result does not start with `#` |
| Text.Slice | generate-location-icons.py:112 | `h[i:j]` is the substring when it fits, the rest of `h` when only `j` overshoots, and empty when `i` is past the end |
| Colors.ParseField | generate-location-icons.py:112 | `int(field, 16)` on a field of at most two characters: a result lies in -15..255, a negative one needs a `-` in the field, an all-whitespace field raises, and so does a field with any character that is not `int()` whitespace, a hexadecimal digit or a sign |
| Colors.ParseDigitField | generate-location-icons.py:112 | one digit with `int()` whitespace on either side or none parses to its value (`"f"`, `" f"` and `"f "` are 15) |
| Colors.ParseSignedDigit | generate-location-icons.py:112 | a sign followed by one digit parses to the signed value (`"-f"` is -15) |
| Colors.ForeignCharRaises | generate-location-icons.py:109-112 | a colour with such a character among the six after the `#`s raises (`#zzzzzz`) |
| Colors.IntSpaceIsSpace | generate-location-icons.py:112 | the whitespace `int(field, 16)` skips is that of `str.isspace` without the four separators U+001C to U+001F |
| Colors.StripShort | generate-location-icons.py:112 | the whitespace `int()` skips is removed from both ends of a field, every other character of the field stays, nothing else is added, and an all-whitespace field leaves nothing |
| Colors.StripShortAgrees | generate-location-icons.py:112 | where `int()` and `str.isspace` agree on a field's characters, `int()` strips the field as `str.strip()` does |
| Colors.StripShortWithoutSeparators | generate-location-icons.py:112 | a field without any of U+001C to U+001F is stripped by `int()` exactly as by `str.strip()` |
| Colors.StripShortKeepsSeparator | generate-location-icons.py:112 | `"\x1c1"` strips to `"1"` under `str.strip()`, but `int()` keeps the separator and raises; `"\x1c\xa0"` strips to nothing, but `int()` keeps the separator |
| Colors.HexToRgb | generate-location-icons.py:109-112 | a successful conversion is an RGB tuple with channels in -15..255; fewer than five characters after the leading `#`s always raise |
| Colors.SixDigitsDecode | generate-location-icons.py:109-112 | when six hexadecimal digits follow the `#`s, the result is the three two-digit pairs, each in 0..255 |
| Colors.DecodeEncode | generate-location-icons.py:109-112 | every byte colour printed as `#rrggbb` converts back to itself |
| Colors.EncodeDecode | generate-location-icons.py:109-112 | every `#` plus six lower-case digits converts without raising and prints back to the same text |
| Colors.ParseByteHex | generate-location-icons.py:112 | the two-digit lower-case text of a byte parses back to that byte |
| Styles.HexColourDecodes | generate-location-icons.py:109-112 | a `#rrggbb` colour converts to its three digit pairs |
| Styles.TableColoursAreHex | generate-location-icons.py:10-20 | every colour in the table is `#` plus six lower-case hexadecimal digits |
| Styles.TableColourDecodes | generate-location-icons.py:10-20 | every table colour converts without raising, to a byte colour that prints back as the table's text |
| Styles.Lookup | generate-location-icons.py:118-123 | the colour is an RGB tuple exactly when the category is in the table; an unknown category gets the fallback style; a known one gets its row's shape and code and a byte colour that prints back as the row's hex text |
| Styles.ObjectivesStyle | generate-location-icons.py:15 | `objectives` is drawn as a star in (255, 235, 59) marked `OBJ` |
| Styles.OtherStyle | generate-location-icons.py:19 | the `other` row is a grey circle in (158, 158, 158) marked `???` |
| Styles.FallbackVersusOther | generate-location-icons.py:118-123 | an unknown category's style differs from the `other` row's only in keeping the colour as a hex string, which converts to the `other` row's tuple |
| Paths.Join | generate-location-icons.py:142 | the joined path ends with the second part; an absolute second part replaces the first; otherwise the first part is followed by at most one inserted `/` |
| Paths.Basename | generate-location-icons.py:116 | the base name is the longest suffix without a `/` |
| Paths.BasenameOfJoin | generate-location-icons.py:116 | a folder joined under any directory has its entry's name as its base name, so the category looked up is the entry name |
| Manifest.SplitLines | generate-location-icons.py:132-133 | the lines of a file contain no line break and there is at least one |
| Manifest.KeepNames | generate-location-icons.py:133 | every kept name is non-empty and stripped |
| Manifest.ReadNames | generate-location-icons.py:132-133 | every name read is non-empty, stripped and on one line |
| Manifest.KeepNamesAppend | generate-location-icons.py:133 | filtering lines is independent per line and keeps their order |
| Manifest.ReadNamesAppend | generate-location-icons.py:132-133 | two texts joined by a line break read as the names of the first followed by those of the second |
| Manifest.ReadNamesOfLine | generate-location-icons.py:132-133 | a single line reads as its stripped text, or as no name when it is blank; with `ReadNamesAppend` this fixes the names read from any text |
| Manifest.ReadNamesJoinLines | generate-location-icons.py:132-133 | a manifest written from well-formed names, one per line, reads back as exactly those names, in order and with duplicates |
| Manifest.NormalizeWithoutPng | generate-location-icons.py:139 | a name that does not contain `.png` is left as it is |
| Manifest.NormalizeAbsorbsSuffix | generate-location-icons.py:139 | appending `.png` to any name does not change its normalised form |
| Manifest.NormalizePngName | generate-location-icons.py:139 | `foo.png` normalises to `foo` when `foo` does not contain `.png` |
| Manifest.NormalizeCanLeavePng | generate-location-icons.py:139 | one removal pass can leave `.png` in the result, so normalising twice differs from normalising once |
| Manifest.Normalize | generate-location-icons.py:139 | removing `.png` never lengthens a name; `NormalizeWithoutPng` and `NormalizeSplits` say what it removes |
| Manifest.NormalizeSplits | generate-location-icons.py:139 | an occurrence of `.png` anywhere in a name is removed, and the parts before and after it are normalised independently (`a.pngb` becomes `ab`) |
| Generation.OutputPath | generate-location-icons.py:142 | every output path ends in `.png` |
| Generation.OutputPathBasename | generate-location-icons.py:142 | the file created is named after the normalised name plus `.png`, unless that name holds a `/` |
| Generation.OutputPathIgnoresPng | generate-location-icons.py:139-142 | a name with and without a trailing `.png` has the same output path |
| Generation.TargetsMember | generate-location-icons.py:137-142 | a file is asked for exactly when some name in the manifest is saved to it |
| Generation.GenerateFrom | generate-location-icons.py:135-154 | the pass only adds files the manifest asks for, and the count equals the number of new files, at most one per name; `GenerateFromSucceeded` says which files those are |
| Generation.SucceededMember | generate-location-icons.py:137-152 | a file is among the successful ones exactly when some name saved to it has a render that succeeds |
| Generation.GenerateFromSucceeded | generate-location-icons.py:137-152 | whatever renders fail, the pass ends with exactly the existing files plus the file of every name whose render succeeds: a failure is reported and the names after it are still processed |
| Generation.SucceededCount | generate-location-icons.py:135-154 | `generated_count` is the number of successfully rendered files that did not exist before |
| Generation.CountsSuccessfulRenders | generate-location-icons.py:148-154 | for names saved to distinct files none of which exists, `generated_count` is the number of renders that succeed |
| Generation.AllSucceed | generate-location-icons.py:135-154 | when every render succeeds the folder ends with exactly the existing files plus every target file |
| Generation.AllSucceedCount | generate-location-icons.py:135-154 | when every render succeeds the count is the number of distinct missing target files, however many spellings name each |
| Generation.NothingMissing | generate-location-icons.py:144-146 | when every target already exists nothing is created and the count is zero, whatever the renderer would do |
| Generation.CountAtMostMissing | generate-location-icons.py:135-154 | the count never exceeds the number of distinct missing targets |
| Generation.Idempotent | generate-location-icons.py:135-154 | after a pass in which every render succeeded, a second pass creates nothing and counts zero |
| Generation.DistinctTargetsCount | generate-location-icons.py:137-142 | names saved to pairwise distinct files have as many target files as names |
| Generation.Completeness | generate-location-icons.py:135-154 | with N names saved to distinct files that do not exist, and every render succeeding, exactly N icons are generated |
| Generation.SameFileTargets | generate-location-icons.py:137-142 | two names saved to one file ask for that one file |
| Generation.SameFileGeneratedOnce | generate-location-icons.py:135-154 | two names whose paths resolve to one missing file, such as `x` and `./x`, generate it once and count one |
| Generation.PngVariantGeneratedOnce | generate-location-icons.py:135-154 | listing `foo` and then `foo.png` generates that file once and counts one |
| Generation.ProcessCategory | generate-location-icons.py:114-154 | the colour is an RGB tuple exactly when the folder's base name is a known category; without a manifest nothing changes and the count is zero; otherwise only targets are added and the count equals the number of new files; `ProcessSucceeded` says which files those are |
| Generation.ProcessSucceeded | generate-location-icons.py:125-154 | whatever renders fail, a folder ends with exactly the existing files plus the files whose render succeeds, and its count is the number of those that were new |
| Generation.ProcessAllSucceed | generate-location-icons.py:114-154 | with every render succeeding a folder ends with all its targets |
| Generation.ProcessNothingMissing | generate-location-icons.py:114-154 | a folder whose targets all exist is left unchanged with count zero |
| Generation.GenerateIcons | generate-location-icons.py:135-154 | the imperative loop with a mutable file set and counter ends in the state of the recursive pass |
| Generation.GenerateIconsForCategory | generate-location-icons.py:125-154 | the imperative function ends with the files and count of `ProcessCategory`, and the count is the number of files created |
| Runner.CategoryFolderOf | generate-location-icons.py:171 | an entry without a `/` gives the folder `icons-pathfinding/<entry>`, whose base name, and so whose category, is the entry's name |
| Runner.Walk | generate-location-icons.py:166-181 | from any listing position, the number of categories processed is the number of directories left, only files some remaining directory's manifest asks for are created, and the total is the sum of the per-folder counts and the number of files created; `WalkSucceeded` and `WalkCounts` say which files and which count belongs to which folder |
| Runner.WalkSucceeded | generate-location-icons.py:170-177 | whatever renders fail, the run ends with exactly the existing files plus every file of every directory whose render succeeds: a failure stops neither its folder nor the later ones |
| Runner.WalkCounts | generate-location-icons.py:170-177 | each directory entry puts its own folder's count first, computed on the files that exist when it is visited, followed by the counts of the later directories; other entries add no count |
| Runner.Main | generate-location-icons.py:156-181 | with no root folder nothing happens; otherwise `categories_processed` is the number of directories, the run creates only files some directory's manifest asks for, and `total_generated` is both the sum of the per-folder counts and the number of files created |
| Runner.MainSucceeded | generate-location-icons.py:156-181 | a run ends with exactly the existing files plus every successfully rendered file, and `total_generated` is the number of those that were new |
| Runner.MainFirstCount | generate-location-icons.py:170-177 | when the first entry is a directory, the first per-folder count is the number of its successfully rendered files that were new |
| Runner.WalkAllSucceed | generate-location-icons.py:170-177 | when every render succeeds the run ends with the existing files plus every target of every directory |
| Runner.WalkDirStep | generate-location-icons.py:173-177 | visiting one directory with every render succeeding adds that folder's targets to those created after it |
| Runner.WalkNothingMissing | generate-location-icons.py:170-177 | when every target of every directory exists the run creates nothing and totals zero |
| Runner.RunIdempotent | generate-location-icons.py:156-181 | after a run in which every render succeeded, a second run creates nothing, totals zero and still visits every category |
| Geometry.ShapeOf | generate-location-icons.py:38-84 | the default square is drawn exactly when the shape name is none of the nine named shapes |
| Geometry.StarVertex | generate-location-icons.py:64-68 | each star vertex has equal x and y coordinates |
| Geometry.StarOnDiagonal | generate-location-icons.py:61-70 | all ten star vertices lie on the diagonal, at two points on each side of the centre |
| Geometry.Primitives | generate-location-icons.py:38-84 | every shape makes at least one drawing call, and every coordinate lies within the canvas inset by the padding |
| Geometry.ArrowsAreReflections | generate-location-icons.py:38-54 | the downward arrow is the upward arrow reflected vertex by vertex, and the diamond reflects onto itself with its top and bottom vertices swapped |
| Geometry.BoxInsideSquare | generate-location-icons.py:45-46 | the box shape is the default square inset by the padding on every side |
| Geometry.Label | generate-location-icons.py:98-103 | the label is the first three characters of the code, or the whole code when it is shorter |
| Geometry.DrawIcon | generate-location-icons.py:22-107 | an icon is 64 by 64, drawn in the style's colour, labelled with a prefix of at most three characters of the code, with every shape inside the padded canvas |
| Geometry.TableShapesRecognised | generate-location-icons.py:10-20 | every shape in the table, and the fallback's, has its own drawing branch, so none falls through to the square |
| Geometry.LabelsOfTable | generate-location-icons.py:98-103 | four-letter codes are cut to three (`EXIT` is drawn as `EXI`); `OBJ` and `???` are drawn in full |
| Scenario.ObjectivesNames | generate-location-icons.py:132-133 | the manifest `alpha`, `beta.png` reads as those two names |
| Scenario.BetaOutput | generate-location-icons.py:139-142 | `beta.png` is saved as `beta.png` in its folder, not `beta.png.png` |
| Scenario.ScenarioTargets | generate-location-icons.py:166-177 | the two folders ask for exactly the files of three paths |
| Scenario.EndToEnd | generate-location-icons.py:156-184 | on an empty file system where the three paths name three files, with every render succeeding, the run creates them, totals three and processes two categories |
| Scenario.LiteralPathsAreThreeFiles | generate-location-icons.py:139-142 | the three output paths are different strings, so a file system where each path is its own file meets the condition of `EndToEnd` |
| Scenario.ScenarioStyles | generate-location-icons.py:116-123 | `objectives` is drawn as a yellow star marked `OBJ`; the unknown folder falls back to a grey circle whose colour stays a hex string |

## Left out

- Raster drawing is left out. The model records which drawing calls are made, with their coordinates, fill and line widths. It does not model PIL's pixels, font loading, or the text centring done with the font's bounding box.
- Geometry.StarVertex: the star's coordinates are exact reals, not binary floating point. Both coordinates come from the same expression, so they are equal under either arithmetic. The unused angle (`3.14159`) is not modelled.
- File-system I/O is a parameter. The existence checks become membership in a set of files, reached through a resolver from path to file. `os.listdir` becomes a sequence of entries in some order, and each manifest's contents are given as text. The resolver is fixed for the whole run: a link or mount created while the script runs is not modelled.
- Two crashes are not modelled. An `icon-names.txt` that exists but cannot be opened (it is a directory, or permission is denied; line 132) raises outside any `try`. So does an `icons-pathfinding` that exists but is not a directory, which makes `os.listdir` fail (line 170). Either ends the run with no summary. The model's manifest is present text or `None`, and its listing is a sequence, so neither failure can be expressed.
- Reading a manifest that is not valid UTF-8 raises in the source. The model takes manifest text as already decoded characters.
- Printing is left out. The model keeps the printed numbers as data (`Runner.Summary.counts`, `totalGenerated`, `categoriesProcessed`), but not the messages.
- Drawing and saving an icon is an oracle over manifest positions. It says whether `draw_icon` returns or raises. A partially written file left behind by a failed save is not modelled.
- Colors.ParseField: covers only fields of at most two characters, which is all `hex_to_rgb` can pass to `int(field, 16)`. It accepts only ASCII hexadecimal digits. Python also accepts other Unicode decimal digits, such as U+0663 ARABIC-INDIC DIGIT THREE; the model raises on them.
- Paths.Join: models POSIX joining only. Windows path rules are left out.
- Paths.Basename: models POSIX base names only.
- `reorganize-icons.cjs`, which creates the folder structure, is not part of this model.

=== FILE: colors.dfy ===
/** Colours and `hex_to_rgb` (generate-location-icons.py:109-112): strip
    every leading `#`, then read the fields `[0:2]`, `[2:4]` and `[4:6]`
    with `int(field, 16)`. */
module Colors {
  import opened Results
  import Text

  /** The source passes a colour around either as the hex string itself
      (the fallback style) or as an RGB tuple (every table style). */
  datatype Color = Hex(code: string) | Rgb(red: int, green: int, blue: int)

  predicate IsHexDigit(c: char) {
    ('0' <= c <= '9') || ('a' <= c <= 'f') || ('A' <= c <= 'F')
  }

  /** The value of one hexadecimal digit, either case. */
  function DigitValue(c: char): (v: nat)
    requires IsHexDigit(c)
    ensures v < 16
  {
    if '0' <= c <= '9' then c as int - '0' as int
    else if 'a' <= c <= 'f' then c as int - 'a' as int + 10
    else c as int - 'A' as int + 10
  }

  /** The lower-case digit for `v`; `DigitValue` inverts it. */
  function DigitChar(v: nat): (c: char)
    requires v < 16
    ensures IsHexDigit(c) && DigitValue(c) == v
    ensures !('A' <= c <= 'F')
  {
    if v < 10 then ('0' as int + v) as char else ('a' as int + v - 10) as char
  }

  /** The whitespace `int()` skips around a field. A character below
      U+007F is kept as it is, so only the six ASCII whitespace characters
      (tab, line feed, vertical tab, form feed, carriage return and space)
      count among those; a whitespace character from U+0080 on is turned
      into a space first, so it counts too. The separators U+001C..U+001F,
      which `str.isspace` accepts, are never skipped. */
  predicate IntSpace(c: char) {
    ('\t' <= c <= '\r') || c == ' ' || ('\U{80}' <= c && Text.IsSpace(c))
  }

  /** A character `int()` accepts nowhere in a field: not whitespace, not a
      digit and not a sign. */
  predicate IsForeign(c: char) {
    !IntSpace(c) && !IsHexDigit(c) && c != '+' && c != '-'
  }

  /** Python's `int(field, 16)` for the fields `hex_to_rgb` can produce,
      which are at most two characters long. Surrounding `IntSpace` is
      ignored, a sign may precede a single digit, and anything else raises.
      (Python's `0x` prefix and `_` separators need at least three
      characters, so they cannot occur in such a field.) The values of the
      accepted forms are `ParseDigitField`, `ParseSignedDigit` and
      `ParseTwoDigits`. */
  function ParseField(field: string): (r: Result<int>)
    requires |field| <= 2
    ensures r.Ok? ==> -15 <= r.value <= 255
    ensures r.Ok? && r.value < 0 ==> '-' in field
    ensures Text.AllSpace(field) ==> r == ValueError
    ensures (exists k :: 0 <= k < |field| && IsForeign(field[k])) ==> r == ValueError
  {
    var t := StripShort(field);
    if |t| == 1 && IsHexDigit(t[0]) then
      assert t[0] in field;
      Ok(DigitValue(t[0]))
    else if |t| == 2 && IsHexDigit(t[0]) && IsHexDigit(t[1]) then
      assert t[0] in field;
      Ok(16 * DigitValue(t[0]) + DigitValue(t[1]))
    else if |t| == 2 && (t[0] == '+' || t[0] == '-') && IsHexDigit(t[1]) then
      assert t[0] in field;
      var d: int := DigitValue(t[1]);
      Ok(if t[0] == '-' then -d else d)
    else
      ValueError
  }

  /** What `int()` strips from a field of at most two characters, written
      out case by case: `IntSpace` is dropped from both ends and every
      other character stays. Where `IntSpace` and `str.isspace` agree on
      the field's characters this is `Text.Strip` (`StripShortAgrees`);
      where they do not, it is not (`StripShortKeepsSeparator`). */
  function StripShort(field: string): (t: string)
    requires |field| <= 2
    ensures |t| <= |field|
    ensures forall k :: 0 <= k < |t| ==> t[k] in field
    ensures forall k :: 0 <= k < |field| && !IntSpace(field[k]) ==> field[k] in t
    ensures (forall k :: 0 <= k < |field| ==> IntSpace(field[k])) ==> t == []
    ensures t == [] || (!IntSpace(t[0]) && !IntSpace(t[|t| - 1]))
  {
    if |field| == 2 && !IntSpace(field[0]) && !IntSpace(field[1]) then field
    else if |field| == 2 && !IntSpace(field[1]) then [field[1]]
    else if |field| >= 1 && !IntSpace(field[0]) then [field[0]]
    else []
  }

  /** Where `int()` and `str.strip` agree on which of the field's
      characters are whitespace, the field is stripped as `Text.Strip`
      strips it. */
  lemma StripShortAgrees(field: string)
    requires |field| <= 2
    requires forall k :: 0 <= k < |field| ==> (IntSpace(field[k]) <==> Text.IsSpace(field[k]))
    ensures StripShort(field) == Text.Strip(field)
  {
    if |field| == 2 && !Text.IsSpace(field[0]) && !Text.IsSpace(field[1]) {
      assert Text.IsStripped(field);
    } else if |field| == 2 && !Text.IsSpace(field[1]) {
      StripLeadingSpace(field);
    } else if |field| >= 1 && !Text.IsSpace(field[0]) {
      StripTrailingSpace(field);
    } else {
      assert Text.AllSpace(field);
    }
  }

  /** The separators U+001C..U+001F are the only characters `int()` and
      `str.isspace` disagree on. */
  predicate IsSeparator(c: char) {
    '\U{1C}' <= c <= '\U{1F}'
  }

  /** The whitespace `int()` skips is `str.isspace` without the four
      separators. */
  lemma IntSpaceIsSpace(c: char)
    ensures IntSpace(c) <==> Text.IsSpace(c) && !IsSeparator(c)
  {
  }

  /** A field without a separator is stripped by `int()` as by
      `str.strip`. */
  lemma StripShortWithoutSeparators(field: string)
    requires |field| <= 2
    requires forall k :: 0 <= k < |field| ==> !IsSeparator(field[k])
    ensures StripShort(field) == Text.Strip(field)
  {
    StripShortAgrees(field);
  }

  /** The separators U+001C..U+001F are whitespace to `str.isspace` but not
      to `int()`, in an ASCII field or not: `"\x1c1"` strips to `"1"` but
      does not parse, and `"\x1c\xa0"` strips to nothing while `int()`
      keeps the separator. */
  lemma StripShortKeepsSeparator()
    ensures Text.Strip("\U{1C}1") == "1"
    ensures StripShort("\U{1C}1") == "\U{1C}1"
    ensures ParseField("\U{1C}1") == ValueError
    ensures Text.Strip("\U{1C}\U{A0}") == []
    ensures StripShort("\U{1C}\U{A0}") == "\U{1C}"
  {
    StripLeadingSpace("\U{1C}1");
    assert Text.AllSpace("\U{1C}\U{A0}");
  }

  lemma StripLeadingSpace(field: string)
    requires |field| == 2 && Text.IsSpace(field[0]) && !Text.IsSpace(field[1])
    ensures Text.Strip(field) == [field[1]]
  {
    assert field[1..] == [field[1]];
  }

  lemma StripTrailingSpace(field: string)
    requires 1 <= |field| <= 2 && !Text.IsSpace(field[0])
    requires |field| == 2 ==> Text.IsSpace(field[1])
    ensures Text.Strip(field) == [field[0]]
  {
    if |field| == 2 {
      assert field[..1] == [field[0]];
    } else {
      assert field == [field[0]];
    }
  }

  predicate InByteRange(v: int) {
    0 <= v < 256
  }

  /** Every channel of an RGB colour lies in 0..255. */
  predicate IsByteRgb(c: Color) {
    c.Rgb? && InByteRange(c.red) && InByteRange(c.green) && InByteRange(c.blue)
  }

  /** The first six characters are hexadecimal digits. */
  predicate StartsWithSixHexDigits(h: string) {
    |h| >= 6 && forall k :: 0 <= k < 6 ==> IsHexDigit(h[k])
  }

  /** `hex_to_rgb(hexColor)`: `ValueError` when a field does not parse. */
  function HexToRgb(hexColor: string): (r: Result<Color>)
    ensures r.Ok? ==> r.value.Rgb?
    ensures r.Ok? ==> -15 <= r.value.red <= 255 && -15 <= r.value.green <= 255 && -15 <= r.value.blue <= 255
    ensures |Text.LStrip(hexColor, '#')| <= 4 ==> r == ValueError
  {
    var h := Text.LStrip(hexColor, '#');
    var red := ParseField(Text.Slice(h, 0, 2));
    var green := ParseField(Text.Slice(h, 2, 4));
    var blue := ParseField(Text.Slice(h, 4, 6));
    if red.Ok? && green.Ok? && blue.Ok? then Ok(Rgb(red.value, green.value, blue.value))
    else ValueError
  }

  /** Two lower-case digits for one channel. */
  function ByteHex(v: nat): (s: string)
    requires v < 256
    ensures |s| == 2
  {
    [DigitChar(v / 16), DigitChar(v % 16)]
  }

  /** `#rrggbb` in lower case: the inverse of `HexToRgb` on byte colours. */
  function RgbToHex(c: Color): (s: string)
    requires IsByteRgb(c)
    ensures |s| == 7 && s[0] == '#'
  {
    "#" + ByteHex(c.red) + ByteHex(c.green) + ByteHex(c.blue)
  }

  /** Two hexadecimal digits parse to the byte they spell. */
  lemma ParseTwoDigits(field: string)
    requires |field| == 2 && IsHexDigit(field[0]) && IsHexDigit(field[1])
    ensures ParseField(field) == Ok(16 * DigitValue(field[0]) + DigitValue(field[1]))
  {
    HexDigitNotSpace(field[0]);
    HexDigitNotSpace(field[1]);
  }

  lemma HexDigitNotSpace(c: char)
    requires IsHexDigit(c)
    ensures !Text.IsSpace(c) && !IntSpace(c)
  {
  }

  /** A single digit, with `int()` whitespace on either side or none,
      parses to its value: `"f"`, `" f"` and `"f "` are all 15. */
  lemma ParseDigitField(field: string, k: nat)
    requires |field| <= 2 && k < |field| && IsHexDigit(field[k])
    requires forall j :: 0 <= j < |field| && j != k ==> IntSpace(field[j])
    ensures ParseField(field) == Ok(DigitValue(field[k]))
  {
    HexDigitNotSpace(field[k]);
  }

  /** A sign followed by one digit parses to the signed value: `"-f"` is
      -15 and `"+f"` is 15. */
  lemma ParseSignedDigit(sign: char, c: char)
    requires (sign == '+' || sign == '-') && IsHexDigit(c)
    ensures ParseField([sign, c]) == Ok(if sign == '-' then -(DigitValue(c) as int) else DigitValue(c))
  {
    HexDigitNotSpace(c);
  }

  /** A colour with a character `int()` cannot accept among the six after
      the `#`s raises: `hex_to_rgb("#zzzzzz")` is a `ValueError`. */
  lemma ForeignCharRaises(hexColor: string, h: string, k: nat)
    requires h == Text.LStrip(hexColor, '#')
    requires k < 6 && k < |h| && IsForeign(h[k])
    ensures HexToRgb(hexColor) == ValueError
  {
    if k < 2 {
      FieldRaises(h, 0, k);
    } else if k < 4 {
      FieldRaises(h, 2, k);
    } else {
      FieldRaises(h, 4, k);
    }
  }

  lemma FieldRaises(h: string, i: nat, k: nat)
    requires i <= k < i + 2 && k < |h| && IsForeign(h[k])
    ensures ParseField(Text.Slice(h, i, i + 2)) == ValueError
  {
    assert Text.Slice(h, i, i + 2)[k - i] == h[k];
  }

  /** The byte spelled by the digit pair `h[i]h[i+1]`. */
  function PairValue(h: string, i: nat): (v: nat)
    requires StartsWithSixHexDigits(h) && i <= 4
    ensures v < 256
  {
    16 * DigitValue(h[i]) + DigitValue(h[i + 1])
  }

  lemma SliceOfSix(h: string, i: nat)
    requires StartsWithSixHexDigits(h) && i <= 4
    ensures Text.Slice(h, i, i + 2) == [h[i], h[i + 1]]
    ensures IsHexDigit(h[i]) && IsHexDigit(h[i + 1])
  {
  }

  /** The field `h[i:i+2]` of a colour with six leading digits parses to
      the byte its two digits spell. */
  lemma FieldOfSixDigits(h: string, i: nat)
    requires StartsWithSixHexDigits(h) && i <= 4
    ensures ParseField(Text.Slice(h, i, i + 2)) == Ok(PairValue(h, i))
  {
    SliceOfSix(h, i);
    ParseTwoDigits([h[i], h[i + 1]]);
  }

  /** `HexToRgb` succeeds once its three fields parse. */
  lemma AssembleFields(hexColor: string, h: string, red: int, green: int, blue: int)
    requires h == Text.LStrip(hexColor, '#')
    requires && ParseField(Text.Slice(h, 0, 2)) == Ok(red)
             && ParseField(Text.Slice(h, 2, 4)) == Ok(green)
             && ParseField(Text.Slice(h, 4, 6)) == Ok(blue)
    ensures HexToRgb(hexColor) == Ok(Rgb(red, green, blue))
  {
  }

  /** Six leading digits (after any number of `#`) always decode, to a byte
      colour whose channels are the three digit pairs; characters after the
      sixth are ignored. */
  lemma {:induction false} SixDigitsDecode(hexColor: string, h: string)
    requires h == Text.LStrip(hexColor, '#') && StartsWithSixHexDigits(h)
    ensures HexToRgb(hexColor) == Ok(Rgb(PairValue(h, 0), PairValue(h, 2), PairValue(h, 4)))
    ensures IsByteRgb(HexToRgb(hexColor).value)
  {
    FieldOfSixDigits(h, 0);
    FieldOfSixDigits(h, 2);
    FieldOfSixDigits(h, 4);
    AssembleFields(hexColor, h, PairValue(h, 0), PairValue(h, 2), PairValue(h, 4));
  }

  lemma ParseByteHex(v: nat)
    requires v < 256
    ensures ParseField(ByteHex(v)) == Ok(v)
  {
    var s := ByteHex(v);
    HexDigitNotSpace(s[0]);
    HexDigitNotSpace(s[1]);
  }

  /** Decoding an encoded byte colour gives the colour back. */
  lemma {:induction false} DecodeEncode(c: Color)
    requires IsByteRgb(c)
    ensures HexToRgb(RgbToHex(c)) == Ok(c)
  {
    var body := ByteHex(c.red) + ByteHex(c.green) + ByteHex(c.blue);
    assert RgbToHex(c) == "#" + body;
    assert Text.LStrip(RgbToHex(c), '#') == body by {
      assert ("#" + body)[1..] == body;
    }
    assert Text.Slice(body, 0, 2) == ByteHex(c.red);
    assert Text.Slice(body, 2, 4) == ByteHex(c.green);
    assert Text.Slice(body, 4, 6) == ByteHex(c.blue);
    ParseByteHex(c.red);
    ParseByteHex(c.green);
    ParseByteHex(c.blue);
  }

  predicate IsLowerHexDigit(c: char) {
    ('0' <= c <= '9') || ('a' <= c <= 'f')
  }

  /** A lower-case digit pair is what `ByteHex` prints for its value. */
  lemma ByteHexOfPair(h: string, i: nat)
    requires StartsWithSixHexDigits(h) && i <= 4
    requires IsLowerHexDigit(h[i]) && IsLowerHexDigit(h[i + 1])
    ensures ByteHex(PairValue(h, i)) == h[i..i + 2]
  {
  }

  /** Printing the three pair values of six lower-case digits gives them back. */
  lemma PrintPairs(h: string)
    requires |h| == 6 && StartsWithSixHexDigits(h)
    requires forall k :: 0 <= k < 6 ==> IsLowerHexDigit(h[k])
    ensures RgbToHex(Rgb(PairValue(h, 0), PairValue(h, 2), PairValue(h, 4))) == "#" + h
  {
    ByteHexOfPair(h, 0);
    ByteHexOfPair(h, 2);
    ByteHexOfPair(h, 4);
    assert h == h[0..2] + h[2..4] + h[4..6];
  }

  /** `#` followed by six lower-case digits decodes to a byte colour that
      encodes back to the same text. */
  lemma {:induction false} EncodeDecode(h: string)
    requires |h| == 6 && forall k :: 0 <= k < 6 ==> IsLowerHexDigit(h[k])
    ensures && HexToRgb("#" + h).Ok?
            && IsByteRgb(HexToRgb("#" + h).value)
            && RgbToHex(HexToRgb("#" + h).value) == "#" + h
  {
    assert StartsWithSixHexDigits(h) by {
      forall k | 0 <= k < 6 ensures IsHexDigit(h[k]) {
        assert IsLowerHexDigit(h[k]);
      }
    }
    var hc := "#" + h;
    assert hc[1..] == h;
    assert Text.LStrip(hc, '#') == h;
    SixDigitsDecode(hc, h);
    PrintPairs(h);
  }
}

=== FILE: generation.dfy ===
/** One category folder: `generate_icons_for_category`
    (generate-location-icons.py:114-154). The file system is the set of
    files that exist, each named by its resolved path; a `Resolver` says
    which file a path names, so two spellings of one file are one file.
    Drawing and saving an icon is an oracle that says, per manifest
    position, whether it succeeds. A failed attempt creates nothing and does
    not stop the loop. */
module Generation {
  import opened Results
  import Paths
  import Manifest
  import Styles

  /** Whether drawing and saving the icon for manifest position `i`
      succeeds (`draw_icon` returns) or raises. */
  type Oracle = nat -> bool

  /** The file a path names on the file system, as `os.path.exists` and
      `img.save` see it: `x/./y`, `x/../x/y`, `x//y`, a symbolic link and
      its target, or two spellings on a case-insensitive volume may all
      resolve to one file. */
  type Resolver = string -> string

  /** `os.path.join(category_folder, f"{icon_name}.png")` for the name after
      `.png` has been removed from it. */
  function OutputPath(folder: string, name: string): (p: string)
    ensures |p| >= |Manifest.Png| && p[|p| - |Manifest.Png|..] == Manifest.Png
  {
    Paths.Join(folder, Manifest.Normalize(name) + Manifest.Png)
  }

  /** The file the icon for `name` is saved to. */
  function FileOf(resolve: Resolver, folder: string, name: string): string {
    resolve(OutputPath(folder, name))
  }

  /** The file created is named after the normalised name, in the folder,
      unless the name itself holds a `/`. */
  lemma OutputPathBasename(folder: string, name: string)
    requires '/' !in Manifest.Normalize(name)
    ensures Paths.Basename(OutputPath(folder, name)) == Manifest.Normalize(name) + Manifest.Png
  {
    Paths.BasenameOfJoin(folder, Manifest.Normalize(name) + Manifest.Png);
  }

  /** A name with and without `.png` has the same output path. */
  lemma OutputPathIgnoresPng(folder: string, name: string)
    ensures OutputPath(folder, name + Manifest.Png) == OutputPath(folder, name)
  {
    Manifest.NormalizeAbsorbsSuffix(name);
  }

  /** Every file the names in `names` ask for. */
  function Targets(resolve: Resolver, folder: string, names: seq<string>): set<string> {
    if names == [] then {} else {FileOf(resolve, folder, names[0])} + Targets(resolve, folder, names[1..])
  }

  /** A file is a target exactly when some name in the list asks for it. */
  lemma TargetsMember(resolve: Resolver, folder: string, names: seq<string>, f: string)
    ensures f in Targets(resolve, folder, names) <==>
              exists j :: 0 <= j < |names| && FileOf(resolve, folder, names[j]) == f
  {
    if f in Targets(resolve, folder, names) {
      TargetsOnly(resolve, folder, names, f);
    }
    if exists j :: 0 <= j < |names| && FileOf(resolve, folder, names[j]) == f {
      var j :| 0 <= j < |names| && FileOf(resolve, folder, names[j]) == f;
      TargetsContain(resolve, folder, names, j);
    }
  }

  lemma TargetsContain(resolve: Resolver, folder: string, names: seq<string>, j: nat)
    requires j < |names|
    ensures FileOf(resolve, folder, names[j]) in Targets(resolve, folder, names)
  {
    TargetsContainFrom(resolve, folder, names, 0, j);
    assert names[0..] == names;
  }

  /** The file of position `j` is among the targets of every suffix that
      still holds position `j`. */
  lemma {:induction false} TargetsContainFrom(resolve: Resolver, folder: string, names: seq<string>, i: nat, j: nat)
    requires i <= j < |names|
    ensures FileOf(resolve, folder, names[j]) in Targets(resolve, folder, names[i..])
    decreases j - i
  {
    TargetsStep(resolve, folder, names, i);
    if i < j {
      TargetsContainFrom(resolve, folder, names, i + 1, j);
    }
  }

  lemma {:induction false} TargetsOnly(resolve: Resolver, folder: string, names: seq<string>, f: string)
    requires f in Targets(resolve, folder, names)
    ensures exists j :: 0 <= j < |names| && FileOf(resolve, folder, names[j]) == f
  {
    if f != FileOf(resolve, folder, names[0]) {
      TargetsOnly(resolve, folder, names[1..], f);
      var j :| 0 <= j < |names[1..]| && FileOf(resolve, folder, names[1..][j]) == f;
      assert names[1..][j] == names[j + 1];
    }
  }

  lemma TargetsStep(resolve: Resolver, folder: string, names: seq<string>, i: nat)
    requires i < |names|
    ensures Targets(resolve, folder, names[i..])
            == {FileOf(resolve, folder, names[i])} + Targets(resolve, folder, names[i + 1..])
  {
    assert names[i..][0] == names[i] && names[i..][1..] == names[i + 1..];
  }

  /** What a pass over a folder leaves: the files that exist afterwards and
      the number of icons it generated. */
  datatype Outcome = Outcome(files: set<string>, count: nat)

  /** Adding a fresh file to `fs` on the way to `rest` adds one to the
      number of new files. */
  lemma NewFilesStep(fs: set<string>, f: string, rest: set<string>)
    requires f !in fs && fs + {f} <= rest
    ensures |rest - fs| == |rest - (fs + {f})| + 1
  {
    assert rest - fs == (rest - (fs + {f})) + {f};
  }

  /** The loop of lines 137-152 from manifest position `i` on, starting from
      the files `fs`: a name whose file exists is skipped, otherwise the
      oracle decides whether the icon is created and counted. */
  function GenerateFrom(resolve: Resolver, folder: string, names: seq<string>, ok: Oracle, i: nat, fs: set<string>)
    : (r: Outcome)
    requires i <= |names|
    ensures fs <= r.files
    ensures r.files <= fs + Targets(resolve, folder, names[i..])
    ensures r.count == |r.files - fs|
    ensures r.count <= |names| - i
    decreases |names| - i
  {
    if i == |names| then Outcome(fs, 0)
    else
      var f := FileOf(resolve, folder, names[i]);
      TargetsStep(resolve, folder, names, i);
      if f in fs then GenerateFrom(resolve, folder, names, ok, i + 1, fs)
      else if ok(i) then
        var r := GenerateFrom(resolve, folder, names, ok, i + 1, fs + {f});
        NewFilesStep(fs, f, r.files);
        Outcome(r.files, r.count + 1)
      else GenerateFrom(resolve, folder, names, ok, i + 1, fs)
  }

  /** One iteration of the pass, as the loop takes it. */
  lemma GenerateStep(resolve: Resolver, folder: string, names: seq<string>, ok: Oracle, i: nat, fs: set<string>)
    requires i < |names|
    ensures FileOf(resolve, folder, names[i]) in fs ==>
              GenerateFrom(resolve, folder, names, ok, i, fs)
              == GenerateFrom(resolve, folder, names, ok, i + 1, fs)
    ensures FileOf(resolve, folder, names[i]) !in fs && !ok(i) ==>
              GenerateFrom(resolve, folder, names, ok, i, fs)
              == GenerateFrom(resolve, folder, names, ok, i + 1, fs)
    ensures FileOf(resolve, folder, names[i]) !in fs && ok(i) ==>
              var f := FileOf(resolve, folder, names[i]);
              var next := GenerateFrom(resolve, folder, names, ok, i + 1, fs + {f});
              && GenerateFrom(resolve, folder, names, ok, i, fs).files == next.files
              && GenerateFrom(resolve, folder, names, ok, i, fs).count == next.count + 1
  {
  }

  /** When every render succeeds, exactly the missing target files are
      created. */
  lemma {:induction false} AllSucceed(resolve: Resolver, folder: string, names: seq<string>, ok: Oracle, i: nat,
                                      fs: set<string>)
    requires i <= |names|
    requires forall j :: ok(j)
    ensures GenerateFrom(resolve, folder, names, ok, i, fs).files == fs + Targets(resolve, folder, names[i..])
    decreases |names| - i
  {
    if i == |names| {
      assert names[i..] == [];
    } else {
      var f := FileOf(resolve, folder, names[i]);
      TargetsStep(resolve, folder, names, i);
      if f in fs {
        AllSucceed(resolve, folder, names, ok, i + 1, fs);
      } else {
        AllSucceed(resolve, folder, names, ok, i + 1, fs + {f});
        CreateStep(resolve, folder, names, ok, i, fs);
      }
    }
  }

  /** When every render succeeds the count is the number of distinct
      missing target files: a name repeated, repeated with `.png`, or
      spelled differently for the same file is generated at most once. */
  lemma AllSucceedCount(resolve: Resolver, folder: string, names: seq<string>, ok: Oracle, fs: set<string>)
    requires forall j :: ok(j)
    ensures GenerateFrom(resolve, folder, names, ok, 0, fs).count == |Targets(resolve, folder, names) - fs|
  {
    AllSucceed(resolve, folder, names, ok, 0, fs);
    assert names[0..] == names;
    var r := GenerateFrom(resolve, folder, names, ok, 0, fs);
    assert r.files - fs == Targets(resolve, folder, names) - fs;
  }

  /** One step of the pass in which the icon is created. */
  lemma CreateStep(resolve: Resolver, folder: string, names: seq<string>, ok: Oracle, i: nat, fs: set<string>)
    requires i < |names| && ok(i) && FileOf(resolve, folder, names[i]) !in fs
    ensures GenerateFrom(resolve, folder, names, ok, i, fs).files
              == GenerateFrom(resolve, folder, names, ok, i + 1, fs + {FileOf(resolve, folder, names[i])}).files
  {
  }

  /** When every target file already exists nothing is generated, whatever
      the renderer would do. */
  lemma {:induction false} NothingMissing(resolve: Resolver, folder: string, names: seq<string>, ok: Oracle,
                                          i: nat,
                                          fs: set<string>)
    requires i <= |names|
    requires Targets(resolve, folder, names[i..]) <= fs
    ensures GenerateFrom(resolve, folder, names, ok, i, fs) == Outcome(fs, 0)
    decreases |names| - i
  {
    if i < |names| {
      TargetsStep(resolve, folder, names, i);
      NothingMissing(resolve, folder, names, ok, i + 1, fs);
    }
  }

  /** The set of new files is a subset of the missing targets, so the
      count never exceeds the number of distinct missing targets. */
  lemma CountAtMostMissing(resolve: Resolver, folder: string, names: seq<string>, ok: Oracle, fs: set<string>)
    ensures GenerateFrom(resolve, folder, names, ok, 0, fs).count <= |Targets(resolve, folder, names) - fs|
  {
    var r := GenerateFrom(resolve, folder, names, ok, 0, fs);
    assert names[0..] == names;
    SubsetCardinality(r.files - fs, Targets(resolve, folder, names) - fs);
  }

  /** The files of the positions from `i` on whose render succeeds. */
  function Succeeded(resolve: Resolver, folder: string, names: seq<string>, ok: Oracle, i: nat): set<string>
    requires i <= |names|
    decreases |names| - i
  {
    if i == |names| then {}
    else (if ok(i) then {FileOf(resolve, folder, names[i])} else {}) + Succeeded(resolve, folder, names, ok, i + 1)
  }

  /** A file is among the successful ones exactly when the render of some
      position from `i` on that is saved to it succeeds. */
  lemma SucceededMember(resolve: Resolver, folder: string, names: seq<string>, ok: Oracle, i: nat, f: string)
    requires i <= |names|
    ensures f in Succeeded(resolve, folder, names, ok, i) <==>
              exists k :: i <= k < |names| && ok(k) && FileOf(resolve, folder, names[k]) == f
  {
    if f in Succeeded(resolve, folder, names, ok, i) {
      var k := SucceededOnly(resolve, folder, names, ok, i, f);
    }
    if exists k :: i <= k < |names| && ok(k) && FileOf(resolve, folder, names[k]) == f {
      var k :| i <= k < |names| && ok(k) && FileOf(resolve, folder, names[k]) == f;
      SucceededContain(resolve, folder, names, ok, i, k);
    }
  }

  lemma {:induction false} SucceededContain(resolve: Resolver, folder: string, names: seq<string>, ok: Oracle,
                                            i: nat, k: nat)
    requires i <= k < |names| && ok(k)
    ensures FileOf(resolve, folder, names[k]) in Succeeded(resolve, folder, names, ok, i)
    decreases k - i
  {
    if i < k {
      SucceededContain(resolve, folder, names, ok, i + 1, k);
    }
  }

  lemma {:induction false} SucceededOnly(resolve: Resolver, folder: string, names: seq<string>, ok: Oracle,
                                         i: nat, f: string)
    returns (k: nat)
    requires i <= |names| && f in Succeeded(resolve, folder, names, ok, i)
    ensures i <= k < |names| && ok(k) && FileOf(resolve, folder, names[k]) == f
    decreases |names| - i
  {
    if ok(i) && FileOf(resolve, folder, names[i]) == f {
      k := i;
    } else {
      k := SucceededOnly(resolve, folder, names, ok, i + 1, f);
    }
  }

  /** One position of `Succeeded`, with the file named. */
  lemma SucceededStep(resolve: Resolver, folder: string, names: seq<string>, ok: Oracle, i: nat, f: string)
    requires i < |names| && f == FileOf(resolve, folder, names[i])
    ensures Succeeded(resolve, folder, names, ok, i)
            == (if ok(i) then {f} else {}) + Succeeded(resolve, folder, names, ok, i + 1)
  {
  }

  /** A render that raises is reported and the loop goes on with the next
      name: whatever the oracle says, the pass ends with exactly the old
      files plus those whose render succeeds. */
  lemma {:induction false} GenerateFromSucceeded(resolve: Resolver, folder: string, names: seq<string>,
                                                 ok: Oracle, i: nat, fs: set<string>)
    requires i <= |names|
    ensures GenerateFrom(resolve, folder, names, ok, i, fs).files == fs + Succeeded(resolve, folder, names, ok, i)
    decreases |names| - i
  {
    if i < |names| {
      var f := FileOf(resolve, folder, names[i]);
      var rest := Succeeded(resolve, folder, names, ok, i + 1);
      SucceededStep(resolve, folder, names, ok, i, f);
      GenerateStep(resolve, folder, names, ok, i, fs);
      if f !in fs && ok(i) {
        GenerateFromSucceeded(resolve, folder, names, ok, i + 1, fs + {f});
        UnionStep(fs, f, true, rest);
      } else {
        GenerateFromSucceeded(resolve, folder, names, ok, i + 1, fs);
        UnionStep(fs, f, ok(i), rest);
      }
    }
  }

  /** Adding a file's success to the rest, seen from `fs`. */
  lemma UnionStep(fs: set<string>, f: string, success: bool, rest: set<string>)
    ensures success ==> fs + ((if success then {f} else {}) + rest) == (fs + {f}) + rest
    ensures f in fs || !success ==> fs + ((if success then {f} else {}) + rest) == fs + rest
  {
  }

  /** `generated_count` is the number of icons the pass renders: the
      successful files that did not exist before. */
  lemma SucceededCount(resolve: Resolver, folder: string, names: seq<string>, ok: Oracle, fs: set<string>)
    ensures GenerateFrom(resolve, folder, names, ok, 0, fs).count
            == |Succeeded(resolve, folder, names, ok, 0) - fs|
  {
    var r := GenerateFrom(resolve, folder, names, ok, 0, fs);
    GenerateFromSucceeded(resolve, folder, names, ok, 0, fs);
    assert r.files - fs == Succeeded(resolve, folder, names, ok, 0) - fs;
  }

  /** The number of positions from `i` on whose render succeeds. */
  function SuccessCount(ok: Oracle, i: nat, n: nat): nat
    requires i <= n
    decreases n - i
  {
    if i == n then 0 else (if ok(i) then 1 else 0) + SuccessCount(ok, i + 1, n)
  }

  /** With names saved to distinct files, one successful render is one
      successful file. */
  lemma {:induction false} DistinctSucceededCount(resolve: Resolver, folder: string, names: seq<string>,
                                                  ok: Oracle, i: nat)
    requires i <= |names|
    requires DistinctTargets(resolve, folder, names)
    ensures |Succeeded(resolve, folder, names, ok, i)| == SuccessCount(ok, i, |names|)
    decreases |names| - i
  {
    if i < |names| {
      var f := FileOf(resolve, folder, names[i]);
      var rest := Succeeded(resolve, folder, names, ok, i + 1);
      SucceededStep(resolve, folder, names, ok, i, f);
      DistinctSucceededCount(resolve, folder, names, ok, i + 1);
      if ok(i) {
        if f in rest {
          var k := SucceededOnly(resolve, folder, names, ok, i + 1, f);
          assert false;
        }
        assert |{f} + rest| == |rest| + 1;
      }
    }
  }

  /** When the names are saved to distinct files none of which exists,
      `generated_count` is the number of renders that succeed: a failed
      icon is not counted and does not stop the names after it. */
  lemma CountsSuccessfulRenders(resolve: Resolver, folder: string, names: seq<string>, ok: Oracle,
                                fs: set<string>)
    requires DistinctTargets(resolve, folder, names)
    requires forall j :: 0 <= j < |names| ==> FileOf(resolve, folder, names[j]) !in fs
    ensures GenerateFrom(resolve, folder, names, ok, 0, fs).count == SuccessCount(ok, 0, |names|)
  {
    SucceededCount(resolve, folder, names, ok, fs);
    DistinctSucceededCount(resolve, folder, names, ok, 0);
    var s := Succeeded(resolve, folder, names, ok, 0);
    forall f | f in s
      ensures f !in fs
    {
      SucceededMember(resolve, folder, names, ok, 0, f);
    }
    assert s - fs == s;
  }

  lemma {:induction false} SubsetCardinality<T>(a: set<T>, b: set<T>)
    requires a <= b
    ensures |a| <= |b|
    decreases b
  {
    if a != {} {
      var x :| x in a;
      SubsetCardinality(a - {x}, b - {x});
    }
  }

  /** Running the pass a second time, after a run in which every render
      succeeded, creates nothing and counts zero. */
  lemma Idempotent(resolve: Resolver, folder: string, names: seq<string>, ok: Oracle, again: Oracle,
                   fs: set<string>)
    requires forall j :: ok(j)
    ensures var first := GenerateFrom(resolve, folder, names, ok, 0, fs);
            GenerateFrom(resolve, folder, names, again, 0, first.files) == Outcome(first.files, 0)
  {
    var first := GenerateFrom(resolve, folder, names, ok, 0, fs);
    AllSucceed(resolve, folder, names, ok, 0, fs);
    NothingMissing(resolve, folder, names, again, 0, first.files);
  }

  /** The names of distinct positions are saved to distinct files. */
  predicate DistinctTargets(resolve: Resolver, folder: string, names: seq<string>) {
    forall j, k :: 0 <= j < k < |names| ==> FileOf(resolve, folder, names[j]) != FileOf(resolve, folder, names[k])
  }

  /** Under distinct targets, the file of position `i` is not asked for by
      any later position. */
  lemma LaterTargetsDiffer(resolve: Resolver, folder: string, names: seq<string>, i: nat)
    requires i < |names| && DistinctTargets(resolve, folder, names)
    ensures FileOf(resolve, folder, names[i]) !in Targets(resolve, folder, names[i + 1..])
  {
    var f := FileOf(resolve, folder, names[i]);
    var later := names[i + 1..];
    if f in Targets(resolve, folder, later) {
      TargetsOnly(resolve, folder, later, f);
      assert false;
    }
  }

  lemma DistinctTargetsCount(resolve: Resolver, folder: string, names: seq<string>)
    requires DistinctTargets(resolve, folder, names)
    ensures |Targets(resolve, folder, names)| == |names|
  {
    DistinctTargetsCountFrom(resolve, folder, names, 0);
    assert names[0..] == names;
  }

  lemma {:induction false} DistinctTargetsCountFrom(resolve: Resolver, folder: string, names: seq<string>, i: nat)
    requires i <= |names| && DistinctTargets(resolve, folder, names)
    ensures |Targets(resolve, folder, names[i..])| == |names| - i
    decreases |names| - i
  {
    if i == |names| {
      assert names[i..] == [];
    } else {
      var f, rest := FileOf(resolve, folder, names[i]), Targets(resolve, folder, names[i + 1..]);
      TargetsStep(resolve, folder, names, i);
      DistinctTargetsCountFrom(resolve, folder, names, i + 1);
      LaterTargetsDiffer(resolve, folder, names, i);
      assert |{f} + rest| == |rest| + 1;
    }
  }

  /** With `N` names saved to distinct files that do not exist yet, and
      every render succeeding, exactly `N` icons are generated. */
  lemma Completeness(resolve: Resolver, folder: string, names: seq<string>, ok: Oracle, fs: set<string>)
    requires forall j :: ok(j)
    requires DistinctTargets(resolve, folder, names)
    requires forall j :: 0 <= j < |names| ==> FileOf(resolve, folder, names[j]) !in fs
    ensures GenerateFrom(resolve, folder, names, ok, 0, fs).count == |names|
  {
    AllSucceedCount(resolve, folder, names, ok, fs);
    DistinctTargetsCount(resolve, folder, names);
    forall f | f in Targets(resolve, folder, names)
      ensures f !in fs
    {
      TargetsMember(resolve, folder, names, f);
    }
    assert Targets(resolve, folder, names) - fs == Targets(resolve, folder, names);
  }

  /** Two names saved to one file ask for that one file. */
  lemma SameFileTargets(resolve: Resolver, folder: string, a: string, b: string)
    requires FileOf(resolve, folder, a) == FileOf(resolve, folder, b)
    ensures Targets(resolve, folder, [a, b]) == {FileOf(resolve, folder, a)}
  {
    var names := [a, b];
    assert names[1..] == [b] && names[1..][1..] == [];
    assert Targets(resolve, folder, names[1..]) == {FileOf(resolve, folder, b)};
  }

  /** A manifest listing two names that are saved to one file, such as `x`
      and `./x`, with every render succeeding, produces that file once and
      counts one: the second name finds the file the first created. */
  lemma SameFileGeneratedOnce(resolve: Resolver, folder: string, a: string, b: string, ok: Oracle, fs: set<string>)
    requires forall j :: ok(j)
    requires FileOf(resolve, folder, a) == FileOf(resolve, folder, b)
    requires FileOf(resolve, folder, a) !in fs
    ensures GenerateFrom(resolve, folder, [a, b], ok, 0, fs).files == fs + {FileOf(resolve, folder, a)}
    ensures GenerateFrom(resolve, folder, [a, b], ok, 0, fs).count == 1
  {
    var names := [a, b];
    var f := FileOf(resolve, folder, a);
    var r := GenerateFrom(resolve, folder, names, ok, 0, fs);
    SameFileTargets(resolve, folder, a, b);
    assert names[0..] == names;
    AllSucceed(resolve, folder, names, ok, 0, fs);
    assert r.files == fs + {f};
    assert r.files - fs == {f};
  }

  /** A manifest listing `foo` and then `foo.png`, with every render
      succeeding, produces the one file once, whatever the resolver. */
  lemma PngVariantGeneratedOnce(resolve: Resolver, folder: string, name: string, ok: Oracle, fs: set<string>)
    requires forall j :: ok(j)
    requires FileOf(resolve, folder, name) !in fs
    ensures GenerateFrom(resolve, folder, [name, name + Manifest.Png], ok, 0, fs).files
            == fs + {FileOf(resolve, folder, name)}
    ensures GenerateFrom(resolve, folder, [name, name + Manifest.Png], ok, 0, fs).count == 1
  {
    OutputPathIgnoresPng(folder, name);
    SameFileGeneratedOnce(resolve, folder, name, name + Manifest.Png, ok, fs);
  }

  /** The result of processing one category folder, with the style its
      icons are drawn in. */
  datatype CategoryRun = CategoryRun(style: Styles.Style, files: set<string>, count: nat)

  /** `generate_icons_for_category(folder)`: the style comes from the
      folder's own name; a folder without a manifest (`None`) generates
      nothing; otherwise the names read from the manifest are processed in
      order. */
  function ProcessCategory(resolve: Resolver, folder: string, manifest: Option<string>, ok: Oracle,
                           fs: set<string>)
    : (r: CategoryRun)
    ensures r.style.color.Rgb? <==> Paths.Basename(folder) in Styles.CategoryStyles
    ensures manifest.None? ==> r.files == fs && r.count == 0
    ensures fs <= r.files && r.count == |r.files - fs|
    ensures manifest.Some? ==> r.files <= fs + Targets(resolve, folder, Manifest.ReadNames(manifest.value))
    ensures r.files <= fs + FolderTargets(resolve, folder, manifest)
  {
    var style := Styles.Lookup(Paths.Basename(folder));
    match manifest
    case None => CategoryRun(style, fs, 0)
    case Some(content) =>
      var names := Manifest.ReadNames(content);
      var o := GenerateFrom(resolve, folder, names, ok, 0, fs);
      assert names[0..] == names;
      CategoryRun(style, o.files, o.count)
  }

  /** A folder's icons are drawn in the style its name looks up. */
  lemma CategoryStyle(resolve: Resolver, folder: string, manifest: Option<string>, ok: Oracle, fs: set<string>)
    ensures ProcessCategory(resolve, folder, manifest, ok, fs).style == Styles.Lookup(Paths.Basename(folder))
  {
  }

  /** The files a category folder asks for: none without a manifest. */
  function FolderTargets(resolve: Resolver, folder: string, manifest: Option<string>): set<string> {
    match manifest
    case None => {}
    case Some(content) => Targets(resolve, folder, Manifest.ReadNames(content))
  }

  /** With every render succeeding, a folder ends with all its targets. */
  lemma ProcessAllSucceed(resolve: Resolver, folder: string, manifest: Option<string>, ok: Oracle, fs: set<string>)
    requires forall j :: ok(j)
    ensures ProcessCategory(resolve, folder, manifest, ok, fs).files
            == fs + FolderTargets(resolve, folder, manifest)
  {
    if manifest.Some? {
      var names := Manifest.ReadNames(manifest.value);
      AllSucceed(resolve, folder, names, ok, 0, fs);
      assert names[0..] == names;
    }
  }

  /** A folder whose targets all exist is left as it is. */
  lemma ProcessNothingMissing(resolve: Resolver, folder: string, manifest: Option<string>, ok: Oracle,
                              fs: set<string>)
    requires FolderTargets(resolve, folder, manifest) <= fs
    ensures ProcessCategory(resolve, folder, manifest, ok, fs).files == fs
    ensures ProcessCategory(resolve, folder, manifest, ok, fs).count == 0
  {
    if manifest.Some? {
      var names := Manifest.ReadNames(manifest.value);
      assert names[0..] == names;
      NothingMissing(resolve, folder, names, ok, 0, fs);
    }
  }

  /** The files of a category folder whose render succeeds: none without
      a manifest. */
  function FolderSucceeded(resolve: Resolver, folder: string, manifest: Option<string>, ok: Oracle): set<string> {
    match manifest
    case None => {}
    case Some(content) => Succeeded(resolve, folder, Manifest.ReadNames(content), ok, 0)
  }

  /** Whatever the oracle says, a folder ends with exactly the old files
      plus those whose render succeeds, and its count is the number of
      those that did not exist before. */
  lemma ProcessSucceeded(resolve: Resolver, folder: string, manifest: Option<string>, ok: Oracle, fs: set<string>)
    ensures ProcessCategory(resolve, folder, manifest, ok, fs).files
            == fs + FolderSucceeded(resolve, folder, manifest, ok)
    ensures ProcessCategory(resolve, folder, manifest, ok, fs).count
            == |FolderSucceeded(resolve, folder, manifest, ok) - fs|
  {
    if manifest.Some? {
      var names := Manifest.ReadNames(manifest.value);
      ProcessIsPass(resolve, folder, manifest.value, ok, fs);
      GenerateFromSucceeded(resolve, folder, names, ok, 0, fs);
      SucceededCount(resolve, folder, names, ok, fs);
    }
  }

  /** A folder with a manifest runs the pass over the names read from it. */
  lemma ProcessIsPass(resolve: Resolver, folder: string, content: string, ok: Oracle, fs: set<string>)
    ensures var o := GenerateFrom(resolve, folder, Manifest.ReadNames(content), ok, 0, fs);
            var r := ProcessCategory(resolve, folder, Some(content), ok, fs);
            r.files == o.files && r.count == o.count
  {
  }

  /** The loop of lines 135-154 as written, with a mutable file set and
      counter; it ends in the state `GenerateFrom` describes. */
  method GenerateIcons(resolve: Resolver, folder: string, names: seq<string>, ok: Oracle, fs: set<string>)
    returns (files: set<string>, count: nat)
    ensures files == GenerateFrom(resolve, folder, names, ok, 0, fs).files
    ensures count == GenerateFrom(resolve, folder, names, ok, 0, fs).count
  {
    files, count := fs, 0;
    for i := 0 to |names|
      invariant GenerateFrom(resolve, folder, names, ok, i, files).files
                == GenerateFrom(resolve, folder, names, ok, 0, fs).files
      invariant count + GenerateFrom(resolve, folder, names, ok, i, files).count
                == GenerateFrom(resolve, folder, names, ok, 0, fs).count
    {
      var outputPath := OutputPath(folder, names[i]);
      GenerateStep(resolve, folder, names, ok, i, files);
      if resolve(outputPath) in files {
        continue;
      }
      if ok(i) {
        files := files + {resolve(outputPath)};
        count := count + 1;
      }
    }
  }

  /** `generate_icons_for_category` as written: nothing without a manifest,
      otherwise the loop over the names read from it; it ends in the state
      `ProcessCategory` describes. */
  method GenerateIconsForCategory(resolve: Resolver, folder: string, manifest: Option<string>, ok: Oracle,
                                  fs: set<string>)
    returns (files: set<string>, count: nat)
    ensures files == ProcessCategory(resolve, folder, manifest, ok, fs).files
    ensures count == ProcessCategory(resolve, folder, manifest, ok, fs).count
    ensures fs <= files && count == |files - fs|
  {
    match manifest
    case None =>
      files, count := fs, 0;
    case Some(content) =>
      var names := Manifest.ReadNames(content);
      files, count := GenerateIcons(resolve, folder, names, ok, fs);
  }
}

=== FILE: geometry.dfy ===
/** The geometry of `draw_icon` (generate-location-icons.py:22-107). On the
    64 by 64 canvas with padding 4 the centre `w / 2` is exactly 32, so every
    coordinate except the star's is an exact integer; the star's are
    products with `0.8` and `0.5`, kept here as exact reals. */
module Geometry {
  import Colors
  import Styles

  const Width := 64
  const Height := 64
  const Pad := 4
  const Cx := Width / 2
  const Cy := Height / 2

  datatype Point = Point(x: int, y: int)

  datatype RealPoint = RealPoint(x: real, y: real)

  /** `[left, top, right, bottom]` as PIL takes it. */
  datatype Box = Box(left: int, top: int, right: int, bottom: int)

  /** One drawing call. Closed shapes are filled with the dark, almost
      opaque RGBA colour (20, 20, 20, 230) and outlined in the category
      colour; arcs and lines are drawn in the category colour. `stroke` is
      the line width. */
  datatype Primitive =
    | Polygon(points: seq<Point>, stroke: int)
    | Ellipse(bounds: Box, stroke: int)
    | Rectangle(bounds: Box, stroke: int)
    | Arc(bounds: Box, startAngle: int, endAngle: int, stroke: int)
    | Line(from: Point, to: Point, stroke: int)
    | RealPolygon(vertices: seq<RealPoint>, stroke: int)

  /** The branches of the shape dispatch; `Square` is the final `else`. */
  datatype Shape = Diamond | Circle | BoxShape | ArrowUp | ArrowDown | Padlock | Star | Radio | Leaf | Square

  /** The `if`/`elif` chain on the shape name. */
  function ShapeOf(name: string): (s: Shape)
    ensures s == Square <==>
              name !in {"diamond", "circle", "box", "arrow_up", "arrow_down", "padlock", "star", "radio", "leaf"}
  {
    if name == "diamond" then Diamond
    else if name == "circle" then Circle
    else if name == "box" then BoxShape
    else if name == "arrow_up" then ArrowUp
    else if name == "arrow_down" then ArrowDown
    else if name == "padlock" then Padlock
    else if name == "star" then Star
    else if name == "radio" then Radio
    else if name == "leaf" then Leaf
    else Square
  }

  predicate InPaddedRange(v: int) {
    Pad <= v <= Width - Pad
  }

  predicate PointInside(p: Point) {
    InPaddedRange(p.x) && InPaddedRange(p.y)
  }

  predicate BoxInside(b: Box) {
    && InPaddedRange(b.left) && InPaddedRange(b.top) && InPaddedRange(b.right) && InPaddedRange(b.bottom)
    && b.left <= b.right && b.top <= b.bottom
  }

  predicate RealInside(p: RealPoint) {
    && Pad as real <= p.x <= (Width - Pad) as real
    && Pad as real <= p.y <= (Height - Pad) as real
  }

  /** Every coordinate of the primitive lies within the padded box. */
  predicate Inside(q: Primitive) {
    match q
    case Polygon(points, _) => forall k :: 0 <= k < |points| ==> PointInside(points[k])
    case Ellipse(bounds, _) => BoxInside(bounds)
    case Rectangle(bounds, _) => BoxInside(bounds)
    case Arc(bounds, _, _, _) => BoxInside(bounds)
    case Line(from, to, _) => PointInside(from) && PointInside(to)
    case RealPolygon(vertices, _) =>
      forall k :: 0 <= k < |vertices| ==> RealInside(vertices[k])
  }

  /** Vertex `i` of the star loop (lines 64-68). The angle the loop computes
      is never used: both coordinates are the same expression, an offset
      from the centre of 0.8 times the outer or inner radius, halved on odd
      vertices and negated on the second five. */
  function StarVertex(i: nat): (v: RealPoint)
    ensures v.x == v.y
  {
    var r: real := if i % 2 == 0 then (Width as real) / 2.0 - Pad as real else (Width as real) / 2.0 - Pad as real - 8.0;
    var offset := r * 0.8 * (if i % 2 == 0 then 1.0 else 0.5) * (if i < 5 then 1.0 else -1.0);
    RealPoint(Cx as real + offset, Cy as real + offset)
  }

  function StarVertices(): (vs: seq<RealPoint>)
    ensures |vs| == 10
  {
    seq(10, i requires 0 <= i => StarVertex(i))
  }

  /** As written the star is degenerate: all ten vertices lie on the
      diagonal `x == y`, alternating between two points on each side of the
      centre, so the polygon encloses no area. */
  lemma StarOnDiagonal()
    ensures forall k :: 0 <= k < |StarVertices()| ==> StarVertices()[k].x == StarVertices()[k].y
    ensures forall k :: 0 <= k < 5 ==> StarVertices()[k].x == if k % 2 == 0 then 54.4 else 40.0
    ensures forall k :: 5 <= k < 10 ==> StarVertices()[k].x == if k % 2 == 0 then 9.6 else 24.0
  {
  }

  /** The drawing calls for each shape (lines 38-84); every coordinate lies
      in the box inset by the padding. */
  function Primitives(s: Shape): (ps: seq<Primitive>)
    ensures |ps| >= 1
    ensures forall k :: 0 <= k < |ps| ==> Inside(ps[k])
  {
    match s
    case Diamond =>
      [Polygon([Point(Cx, Pad), Point(Width - Pad, Cy), Point(Cx, Height - Pad), Point(Pad, Cy)], 3)]
    case Circle =>
      [Ellipse(Box(Pad, Pad, Width - Pad, Height - Pad), 3)]
    case BoxShape =>
      [Rectangle(Box(Pad + 4, Pad + 4, Width - Pad - 4, Height - Pad - 4), 3)]
    case ArrowUp =>
      [Polygon([Point(Cx, Pad), Point(Width - Pad, Cy), Point(Cx + 10, Cy), Point(Cx + 10, Height - Pad),
                Point(Cx - 10, Height - Pad), Point(Cx - 10, Cy), Point(Pad, Cy)], 3)]
    case ArrowDown =>
      [Polygon([Point(Cx, Height - Pad), Point(Width - Pad, Cy), Point(Cx + 10, Cy), Point(Cx + 10, Pad),
                Point(Cx - 10, Pad), Point(Cx - 10, Cy), Point(Pad, Cy)], 3)]
    case Padlock =>
      [Rectangle(Box(Cx - 12, Cy - 8, Cx + 12, Cy + 8), 3),
       Arc(Box(Cx - 12, Cy - 16, Cx + 12, Cy), 0, 180, 3)]
    case Star =>
      [RealPolygon(StarVertices(), 2)]
    case Radio =>
      [Rectangle(Box(Cx - 10, Cy - 6, Cx + 10, Cy + 6), 3),
       Line(Point(Cx, Cy - 6), Point(Cx, Cy - 12), 2),
       Line(Point(Cx - 4, Cy - 12), Point(Cx + 4, Cy - 12), 2)]
    case Leaf =>
      [Ellipse(Box(Cx - 10, Cy - 8, Cx + 10, Cy + 8), 3),
       Line(Point(Cx, Cy - 8), Point(Cx, Cy + 8), 2)]
    case Square =>
      [Rectangle(Box(Pad, Pad, Width - Pad, Height - Pad), 3)]
  }

  /** Reflection in the horizontal centre line. */
  function Flip(p: Point): Point {
    Point(p.x, Height - p.y)
  }

  function FlipAll(points: seq<Point>): (r: seq<Point>)
    ensures |r| == |points|
    ensures forall k :: 0 <= k < |points| ==> r[k] == Flip(points[k])
  {
    if points == [] then [] else [Flip(points[0])] + FlipAll(points[1..])
  }

  /** The spawn arrow is the extraction arrow upside down, vertex by vertex,
      and the diamond is its own reflection up to the order of vertices. */
  lemma ArrowsAreReflections()
    ensures Primitives(ArrowDown) == [Polygon(FlipAll(Primitives(ArrowUp)[0].points), 3)]
    ensures FlipAll(Primitives(Diamond)[0].points)
              == [Point(Cx, Height - Pad), Point(Width - Pad, Cy), Point(Cx, Pad), Point(Pad, Cy)]
  {
    ArrowFlip();
    DiamondFlip();
  }

  lemma ArrowFlip()
    ensures Primitives(ArrowDown) == [Polygon(FlipAll(Primitives(ArrowUp)[0].points), 3)]
  {
    var up := [Point(Cx, Pad), Point(Width - Pad, Cy), Point(Cx + 10, Cy), Point(Cx + 10, Height - Pad),
               Point(Cx - 10, Height - Pad), Point(Cx - 10, Cy), Point(Pad, Cy)];
    var down := [Point(Cx, Height - Pad), Point(Width - Pad, Cy), Point(Cx + 10, Cy), Point(Cx + 10, Pad),
                 Point(Cx - 10, Pad), Point(Cx - 10, Cy), Point(Pad, Cy)];
    assert Primitives(ArrowUp) == [Polygon(up, 3)];
    assert Primitives(ArrowDown) == [Polygon(down, 3)];
    assert forall k :: 0 <= k < |down| ==> FlipAll(up)[k] == down[k];
    assert FlipAll(up) == down;
  }

  lemma DiamondFlip()
    ensures FlipAll(Primitives(Diamond)[0].points)
              == [Point(Cx, Height - Pad), Point(Width - Pad, Cy), Point(Cx, Pad), Point(Pad, Cy)]
  {
  }

  /** The box shape sits strictly inside the default square: it is inset by
      twice the padding. */
  lemma BoxInsideSquare()
    ensures var inner := Primitives(BoxShape)[0].bounds;
            var outer := Primitives(Square)[0].bounds;
            && inner.left == outer.left + Pad && inner.top == outer.top + Pad
            && inner.right == outer.right - Pad && inner.bottom == outer.bottom - Pad
  {
  }

  /** `text[:3]`: at most the first three characters of the label. */
  function Label(text: string): (r: string)
    ensures |r| <= 3 && |r| <= |text| && r == text[..|r|]
    ensures |r| == 3 || r == text
  {
    if |text| <= 3 then text else text[..3]
  }

  /** What `draw_icon` puts on the canvas. */
  datatype Icon = Icon(width: int, height: int, shapes: seq<Primitive>, caption: string, color: Colors.Color)

  /** `draw_icon` for a style: a 64 by 64 canvas, the shape's drawing calls
      and the label's first three characters, all in the style's colour. */
  function DrawIcon(style: Styles.Style): (icon: Icon)
    ensures icon.width == Width && icon.height == Height
    ensures icon.color == style.color
    ensures && |icon.caption| <= 3 && |icon.caption| <= |style.text|
            && icon.caption == style.text[..|icon.caption|]
    ensures forall k :: 0 <= k < |icon.shapes| ==> Inside(icon.shapes[k])
  {
    Icon(Width, Height, Primitives(ShapeOf(style.shape)), Label(style.text), style.color)
  }

  /** Every shape name in the table, and the fallback's, has its own branch:
      none falls through to the default square. */
  lemma TableShapesRecognised()
    ensures forall c :: c in Styles.CategoryStyles ==> ShapeOf(Styles.CategoryStyles[c].shape) != Square
    ensures ShapeOf(Styles.Fallback.shape) == Circle
  {
  }

  /** Four-letter codes are cut to three: `EXIT` is drawn as `EXI`. */
  lemma LabelsOfTable()
    ensures Label(Styles.CategoryStyles["extraction"].text) == "EXI"
    ensures Label(Styles.CategoryStyles["objectives"].text) == "OBJ"
    ensures Label(Styles.Fallback.text) == "???"
  {
  }
}

=== FILE: manifest.dfy ===
/** Reading `icon-names.txt` and normalising the names in it
    (generate-location-icons.py:132-142). */
module Manifest {
  import Text

  /** The extension every icon file gets, and the text removed from names. */
  const Png := ".png"

  /** A line ends at `\n` or `\r`: a text file read with universal newlines
      ends lines at `\n`, `\r` and `\r\n`. */
  predicate IsLineBreak(c: char) {
    c == '\n' || c == '\r'
  }

  predicate NoLineBreak(s: string) {
    forall k :: 0 <= k < |s| ==> !IsLineBreak(s[k])
  }

  /** The pieces of `s` between line breaks, in order. A `\r\n` pair yields
      an extra empty piece, which the blank-line filter drops, so the names
      read are those of universal-newline reading. */
  function SplitLines(s: string): (r: seq<string>)
    ensures |r| >= 1
    ensures forall i :: 0 <= i < |r| ==> NoLineBreak(r[i])
  {
    if s == [] then [[]]
    else if IsLineBreak(s[0]) then [[]] + SplitLines(s[1..])
    else
      var rest := SplitLines(s[1..]);
      [[s[0]] + rest[0]] + rest[1..]
  }

  /** What the generator accepts as one icon name: non-empty, stripped and
      on one line. */
  predicate IsName(s: string) {
    s != [] && Text.IsStripped(s) && NoLineBreak(s)
  }

  /** `[line.strip() for line in lines if line.strip()]`. */
  function KeepNames(lines: seq<string>): (r: seq<string>)
    ensures |r| <= |lines|
    ensures forall i :: 0 <= i < |r| ==> r[i] != [] && Text.IsStripped(r[i])
  {
    if lines == [] then []
    else
      var t := Text.Strip(lines[0]);
      (if t == [] then [] else [t]) + KeepNames(lines[1..])
  }

  /** The icon names listed in a manifest's text, in file order, duplicates
      kept. */
  function ReadNames(content: string): (r: seq<string>)
    ensures forall i :: 0 <= i < |r| ==> IsName(r[i])
  {
    var lines := SplitLines(content);
    var r := KeepNames(lines);
    assert forall i :: 0 <= i < |r| ==> NoLineBreak(r[i]) by {
      KeepNamesFromLines(lines);
    }
    r
  }

  /** Every kept name is the stripped form of a line, so it has no break. */
  lemma {:induction false} KeepNamesFromLines(lines: seq<string>)
    requires forall i :: 0 <= i < |lines| ==> NoLineBreak(lines[i])
    ensures forall i :: 0 <= i < |KeepNames(lines)| ==> NoLineBreak(KeepNames(lines)[i])
  {
    if lines != [] {
      KeepNamesFromLines(lines[1..]);
      StripKeepsNoLineBreak(lines[0]);
    }
  }

  lemma StripKeepsNoLineBreak(s: string)
    requires NoLineBreak(s)
    ensures NoLineBreak(Text.Strip(s))
  {
    var t := Text.Strip(s);
    forall k | 0 <= k < |t|
      ensures !IsLineBreak(t[k])
    {
      Text.StripKeepsChars(s, t[k]);
    }
  }

  /** Keeping names distributes over concatenation of line lists: order is
      preserved and no line affects another. */
  lemma {:induction false} KeepNamesAppend(a: seq<string>, b: seq<string>)
    ensures KeepNames(a + b) == KeepNames(a) + KeepNames(b)
  {
    if a != [] {
      assert (a + b)[1..] == a[1..] + b;
      KeepNamesAppend(a[1..], b);
    } else {
      assert a + b == b;
    }
  }

  /** Splitting at a line break splits the line list there. */
  lemma {:induction false} SplitLinesAppend(a: string, c: char, b: string)
    requires IsLineBreak(c)
    ensures SplitLines(a + [c] + b) == SplitLines(a) + SplitLines(b)
  {
    if a == [] {
      assert a + [c] + b == [c] + b;
      assert ([c] + b)[1..] == b;
    } else {
      assert (a + [c] + b)[0] == a[0];
      assert (a + [c] + b)[1..] == a[1..] + [c] + b;
      SplitLinesAppend(a[1..], c, b);
    }
  }

  /** Reading two manifest texts joined by a line break reads the names of
      the first and then those of the second. */
  lemma ReadNamesAppend(a: string, c: char, b: string)
    requires IsLineBreak(c)
    ensures ReadNames(a + [c] + b) == ReadNames(a) + ReadNames(b)
  {
    SplitLinesAppend(a, c, b);
    KeepNamesAppend(SplitLines(a), SplitLines(b));
  }

  /** The text of a manifest that lists `names`, one per line. */
  function JoinLines(names: seq<string>): string {
    if names == [] then [] else names[0] + "\n" + JoinLines(names[1..])
  }

  lemma {:induction false} SplitLinesOfOneLine(s: string)
    requires NoLineBreak(s)
    ensures SplitLines(s) == [s]
  {
    if s != [] {
      SplitLinesOfOneLine(s[1..]);
      assert s == [s[0]] + s[1..];
    }
  }

  lemma ReadNamesOfName(n: string)
    requires IsName(n)
    ensures ReadNames(n) == [n]
  {
    SplitLinesOfOneLine(n);
    assert KeepNames([n]) == [Text.Strip(n)] + KeepNames([]);
  }

  /** One line of a manifest contributes its stripped text, or nothing
      when it is blank: with `ReadNamesAppend` this fixes the names read
      from any text. */
  lemma ReadNamesOfLine(l: string)
    requires NoLineBreak(l)
    ensures ReadNames(l) == if Text.Strip(l) == [] then [] else [Text.Strip(l)]
  {
    SplitLinesOfOneLine(l);
    assert [l][1..] == [];
  }

  /** A manifest written from well-formed names reads back as exactly those
      names, in order and with duplicates. */
  lemma {:induction false} ReadNamesJoinLines(names: seq<string>)
    requires forall i :: 0 <= i < |names| ==> IsName(names[i])
    ensures ReadNames(JoinLines(names)) == names
  {
    if names != [] {
      var n, rest := names[0], JoinLines(names[1..]);
      assert JoinLines(names) == n + ['\n'] + rest;
      ReadNamesAppend(n, '\n', rest);
      ReadNamesOfName(n);
      ReadNamesJoinLines(names[1..]);
    }
  }

  /** `name.replace('.png', '')`: one left-to-right pass removing every
      non-overlapping occurrence of `.png`, wherever it is in the name. */
  function Normalize(name: string): (r: string)
    ensures |r| <= |name|
  {
    if |name| < |Png| then name
    else if name[..|Png|] == Png then Normalize(name[|Png|..])
    else [name[0]] + Normalize(name[1..])
  }

  /** A name without `.png` in it is left as it is. */
  lemma {:induction false} NormalizeWithoutPng(name: string)
    requires !Text.Contains(name, Png)
    ensures Normalize(name) == name
  {
    if |name| >= |Png| {
      assert !Text.OccursAt(name, Png, 0);
      ContainsTail(name, Png);
      NormalizeWithoutPng(name[1..]);
    }
  }

  lemma ContainsTail(s: string, pat: string)
    requires s != []
    ensures Text.Contains(s[1..], pat) ==> Text.Contains(s, pat)
  {
    if Text.Contains(s[1..], pat) {
      var i: nat :| i <= |s[1..]| && Text.OccursAt(s[1..], pat, i);
      assert s[i + 1..i + 1 + |pat|] == s[1..][i..i + |pat|];
      assert Text.OccursAt(s, pat, i + 1);
    }
  }

  /** A trailing `.png` makes no difference: `.png` cannot overlap itself,
      so the pass over `s` ends exactly where the suffix starts. */
  lemma {:induction false} NormalizeAbsorbsSuffix(s: string)
    ensures Normalize(s + Png) == Normalize(s)
  {
    var t := s + Png;
    if |s| >= |Png| {
      assert t[..|Png|] == s[..|Png|];
      if s[..|Png|] == Png {
        assert t[|Png|..] == s[|Png|..] + Png;
        NormalizeAbsorbsSuffix(s[|Png|..]);
      } else {
        assert t[1..] == s[1..] + Png;
        NormalizeAbsorbsSuffix(s[1..]);
      }
    } else if s == [] {
      assert t == Png;
      assert Normalize(t) == Normalize([]);
    } else {
      assert t[..|Png|] != Png by {
        assert t[|s|] == '.';
        assert Png[|s|] != '.';
      }
      assert t[1..] == s[1..] + Png;
      NormalizeAbsorbsSuffix(s[1..]);
    }
  }

  /** Every `.png` is removed wherever it stands: an occurrence splits the
      name into two parts normalised independently. `.png` cannot overlap
      itself, so the pass over `a` never runs into it. */
  lemma {:induction false} NormalizeSplits(a: string, b: string)
    ensures Normalize(a + Png + b) == Normalize(a) + Normalize(b)
  {
    var t := a + Png + b;
    if |a| >= |Png| {
      assert t[..|Png|] == a[..|Png|];
      if a[..|Png|] == Png {
        assert t[|Png|..] == a[|Png|..] + Png + b;
        NormalizeSplits(a[|Png|..], b);
      } else {
        assert t[1..] == a[1..] + Png + b;
        NormalizeSplits(a[1..], b);
      }
    } else if a == [] {
      assert t[..|Png|] == Png && t[|Png|..] == b;
    } else {
      assert t[..|Png|] != Png by {
        assert t[|a|] == '.';
        assert Png[|a|] != '.';
      }
      assert t[1..] == a[1..] + Png + b;
      NormalizeSplits(a[1..], b);
    }
  }

  /** `foo.png` and `foo` name the same icon. */
  lemma NormalizePngName(s: string)
    requires !Text.Contains(s, Png)
    ensures Normalize(s + Png) == s
  {
    NormalizeAbsorbsSuffix(s);
    NormalizeWithoutPng(s);
  }

  /** One pass can leave `.png` behind, so a normalised name may still
      contain it and normalising is not idempotent. */
  lemma NormalizeCanLeavePng()
    ensures Normalize("..pngpng") == ".png"
    ensures Text.Contains(Normalize("..pngpng"), Png)
    ensures Normalize(Normalize("..pngpng")) != Normalize("..pngpng")
  {
    var s := "..pngpng";
    assert s[..4][1] != Png[1];
    assert s[1..] == ".pngpng";
    assert s[1..][..4] == Png;
    assert s[1..][4..] == "png";
    assert Normalize("png") == "png";
    assert Normalize(s) == ".png";
    assert Text.OccursAt(".png", Png, 0);
    assert Normalize(".png") == Normalize([]);
  }
}

=== FILE: paths.dfy ===
/** The two POSIX path helpers the generator calls: `os.path.join` with two
    arguments and `os.path.basename`. */
module Paths {

  /** `os.path.join(a, b)` on POSIX: an absolute `b` replaces `a`; otherwise
      a `/` is inserted unless `a` is empty or already ends with one. */
  function Join(a: string, b: string): (r: string)
    ensures |b| <= |r| && r[|r| - |b|..] == b
    ensures b != [] && b[0] == '/' ==> r == b
    ensures (b == [] || b[0] != '/') ==> r[..|r| - |b|] == a || r[..|r| - |b|] == a + "/"
  {
    if b != [] && b[0] == '/' then b
    else if a == [] || a[|a| - 1] == '/' then a + b
    else a + "/" + b
  }

  /** `os.path.basename(p)`: what follows the last `/`. The result is the
      longest suffix of `p` without a `/`. */
  function Basename(p: string): (r: string)
    ensures |r| <= |p| && r == p[|p| - |r|..]
    ensures '/' !in r
    ensures |r| < |p| ==> p[|p| - |r| - 1] == '/'
  {
    if p == [] || p[|p| - 1] == '/' then [] else Basename(p[..|p| - 1]) + [p[|p| - 1]]
  }

  /** After a `/` (or at the very start) a slash-free tail is the base name. */
  lemma {:induction false} BasenameAfterSlash(x: string, y: string)
    requires '/' !in y
    requires x == [] || x[|x| - 1] == '/'
    ensures Basename(x + y) == y
  {
    if y != [] {
      var last := y[|y| - 1];
      assert (x + y)[..|x + y| - 1] == x + y[..|y| - 1];
      BasenameAfterSlash(x, y[..|y| - 1]);
      assert y == y[..|y| - 1] + [last];
    }
  }

  /** The folder for a directory entry is named after the entry. */
  lemma {:induction false} BasenameOfJoin(dir: string, item: string)
    requires '/' !in item
    ensures Basename(Join(dir, item)) == item
  {
    if dir == [] || dir[|dir| - 1] == '/' {
      BasenameAfterSlash(dir, item);
    } else {
      BasenameAfterSlash(dir + "/", item);
    }
  }
}

=== FILE: results.dfy ===
/** Failure-carrying values used across the model. */
module Results {

  /** A value that may be absent (a file that does not exist, say). */
  datatype Option<+T> = None | Some(value: T)

  /** The outcome of a Python call that either returns a value or raises
      `ValueError` (the only exception the modelled parsing code raises). */
  datatype Result<+T> = Ok(value: T) | ValueError
}

=== FILE: runner.dfy ===
/** The entry point `main` (generate-location-icons.py:156-186): every
    directory among the entries of `icons-pathfinding` is processed as a
    category folder, and the per-folder counts are added up. */
module Runner {
  import opened Results
  import Paths
  import Generation

  /** The root folder the generator works in. */
  const IconsDir := "icons-pathfinding"

  /** One entry of `os.listdir(ICONS_DIR)`, in listing order: its name,
      whether it is a directory, and the text of its `icon-names.txt` when
      that file exists. */
  datatype DirEntry = DirEntry(name: string, isDir: bool, manifest: Option<string>)

  /** Render outcomes for the folder at each listing position. */
  type RunOracle = nat -> Generation.Oracle

  /** What a run leaves: the files that exist afterwards, the two printed
      counters and the count printed for each folder visited. */
  datatype Summary = Summary(files: set<string>, totalGenerated: nat, categoriesProcessed: nat, counts: seq<nat>)

  function Sum(xs: seq<nat>): nat {
    if xs == [] then 0 else xs[0] + Sum(xs[1..])
  }

  /** The number of directories among `entries`. */
  function DirCount(entries: seq<DirEntry>): nat {
    if entries == [] then 0 else (if entries[0].isDir then 1 else 0) + DirCount(entries[1..])
  }

  /** `os.path.join(ICONS_DIR, item)`. */
  function CategoryFolder(e: DirEntry): string {
    Paths.Join(IconsDir, e.name)
  }

  /** The folder for a directory entry lies directly under the root and is
      named after the entry, so its style is looked up by the entry's name. */
  lemma CategoryFolderOf(e: DirEntry)
    requires '/' !in e.name
    ensures CategoryFolder(e) == IconsDir + "/" + e.name
    ensures Paths.Basename(CategoryFolder(e)) == e.name
  {
    Paths.BasenameOfJoin(IconsDir, e.name);
    if e.name != [] {
      assert e.name[0] in e.name;
    }
  }

  /** Nested growth of file sets adds up. */
  lemma NewPathsSplit(a: set<string>, b: set<string>, c: set<string>)
    requires a <= b <= c
    ensures |c - a| == |c - b| + |b - a|
  {
    assert c - a == (c - b) + (b - a);
    assert (c - b) * (b - a) == {};
  }

  /** Files created in two stages stay within the two stages' targets. */
  lemma WithinTargets(fs: set<string>, mid: set<string>, last: set<string>, a: set<string>, b: set<string>)
    requires mid <= fs + a && last <= mid + b
    ensures last <= fs + (a + b)
  {
  }

  /** The loop of lines 170-181 from listing position `i` on. */
  function Walk(resolve: Generation.Resolver, entries: seq<DirEntry>, ok: RunOracle, i: nat,
                fs: set<string>): (s: Summary)
    requires i <= |entries|
    ensures fs <= s.files
    ensures s.totalGenerated == Sum(s.counts)
    ensures s.categoriesProcessed == |s.counts| == DirCount(entries[i..])
    ensures s.totalGenerated == |s.files - fs|
    ensures s.files <= fs + TargetsFrom(resolve, entries, i)
    decreases |entries| - i
  {
    if i == |entries| then Summary(fs, 0, 0, [])
    else
      assert entries[i..][1..] == entries[i + 1..];
      if !entries[i].isDir then Walk(resolve, entries, ok, i + 1, fs)
      else
        var e := entries[i];
        var c := Generation.ProcessCategory(resolve, CategoryFolder(e), e.manifest, ok(i), fs);
        var rest := Walk(resolve, entries, ok, i + 1, c.files);
        var s := Summary(rest.files, c.count + rest.totalGenerated, rest.categoriesProcessed + 1,
                         [c.count] + rest.counts);
        DirStep(resolve, entries, i, fs, c, rest, s);
        s
  }

  /** A directory's count on top of the rest of the walk keeps everything
      `Walk` promises. */
  lemma DirStep(resolve: Generation.Resolver, entries: seq<DirEntry>, i: nat, fs: set<string>,
                c: Generation.CategoryRun, rest: Summary, s: Summary)
    requires i < |entries| && entries[i].isDir
    requires fs <= c.files && c.count == |c.files - fs|
    requires c.files <= fs + Generation.FolderTargets(resolve, CategoryFolder(entries[i]), entries[i].manifest)
    requires c.files <= rest.files && rest.totalGenerated == Sum(rest.counts)
    requires rest.categoriesProcessed == |rest.counts| == DirCount(entries[i + 1..])
    requires rest.totalGenerated == |rest.files - c.files|
    requires rest.files <= c.files + TargetsFrom(resolve, entries, i + 1)
    requires s == Summary(rest.files, c.count + rest.totalGenerated, rest.categoriesProcessed + 1,
                          [c.count] + rest.counts)
    ensures fs <= s.files
    ensures s.totalGenerated == Sum(s.counts)
    ensures s.categoriesProcessed == |s.counts| == DirCount(entries[i..])
    ensures s.totalGenerated == |s.files - fs|
    ensures s.files <= fs + TargetsFrom(resolve, entries, i)
  {
    assert entries[i..][1..] == entries[i + 1..];
    assert s.counts[1..] == rest.counts;
    NewPathsSplit(fs, c.files, rest.files);
    WithinTargets(fs, c.files, rest.files,
                  Generation.FolderTargets(resolve, CategoryFolder(entries[i]), entries[i].manifest),
                  TargetsFrom(resolve, entries, i + 1));
  }

  /** `main()`: with no root folder nothing is processed; otherwise every
      directory entry is visited once, `total_generated` is the sum of the
      per-folder counts and equals the number of files created. */
  function Main(resolve: Generation.Resolver, rootExists: bool, entries: seq<DirEntry>, ok: RunOracle,
                fs: set<string>): (s: Summary)
    ensures !rootExists ==> s == Summary(fs, 0, 0, [])
    ensures rootExists ==> s.categoriesProcessed == DirCount(entries)
    ensures fs <= s.files
    ensures s.totalGenerated == Sum(s.counts) == |s.files - fs|
    ensures s.categoriesProcessed == |s.counts|
    ensures rootExists ==> s.files <= fs + TargetsFrom(resolve, entries, 0)
  {
    if !rootExists then Summary(fs, 0, 0, [])
    else
      assert entries[0..] == entries;
      Walk(resolve, entries, ok, 0, fs)
  }

  /** Every file the folders from listing position `i` on ask for. */
  function TargetsFrom(resolve: Generation.Resolver, entries: seq<DirEntry>, i: nat): set<string>
    requires i <= |entries|
    decreases |entries| - i
  {
    if i == |entries| then {}
    else
      var e := entries[i];
      (if e.isDir then Generation.FolderTargets(resolve, CategoryFolder(e), e.manifest) else {})
      + TargetsFrom(resolve, entries, i + 1)
  }

  ghost predicate AllSucceed(ok: RunOracle) {
    forall i, j :: ok(i)(j)
  }

  /** When every render succeeds, a run ends with every file any manifest
      asks for. */
  lemma {:induction false} WalkAllSucceed(resolve: Generation.Resolver, entries: seq<DirEntry>, ok: RunOracle,
                                          i: nat, fs: set<string>)
    requires i <= |entries|
    requires AllSucceed(ok)
    ensures Walk(resolve, entries, ok, i, fs).files == fs + TargetsFrom(resolve, entries, i)
    decreases |entries| - i
  {
    if i < |entries| {
      var e := entries[i];
      if e.isDir {
        var c := Generation.ProcessCategory(resolve, CategoryFolder(e), e.manifest, ok(i), fs);
        WalkAllSucceed(resolve, entries, ok, i + 1, c.files);
        assert forall j :: ok(i)(j);
        WalkDirStep(resolve, entries, ok, i, fs, c.files);
      } else {
        WalkAllSucceed(resolve, entries, ok, i + 1, fs);
      }
    }
  }

  /** A directory entry adds its folder's targets to those of the rest. */
  lemma WalkDirStep(resolve: Generation.Resolver, entries: seq<DirEntry>, ok: RunOracle, i: nat,
                    fs: set<string>, mid: set<string>)
    requires i < |entries| && entries[i].isDir
    requires forall j :: ok(i)(j)
    requires mid == Generation.ProcessCategory(resolve, CategoryFolder(entries[i]), entries[i].manifest,
                                               ok(i), fs).files
    requires Walk(resolve, entries, ok, i + 1, mid).files == mid + TargetsFrom(resolve, entries, i + 1)
    ensures Walk(resolve, entries, ok, i, fs).files == fs + TargetsFrom(resolve, entries, i)
  {
    Generation.ProcessAllSucceed(resolve, CategoryFolder(entries[i]), entries[i].manifest, ok(i), fs);
  }

  /** Every file, from listing position `i` on, whose render succeeds in
      a directory's folder. */
  function SucceededFrom(resolve: Generation.Resolver, entries: seq<DirEntry>, ok: RunOracle, i: nat): set<string>
    requires i <= |entries|
    decreases |entries| - i
  {
    if i == |entries| then {}
    else
      var e := entries[i];
      (if e.isDir then Generation.FolderSucceeded(resolve, CategoryFolder(e), e.manifest, ok(i)) else {})
      + SucceededFrom(resolve, entries, ok, i + 1)
  }

  /** Whatever the renders do, a run ends with exactly the old files plus
      every file whose render succeeds: a failure in one folder stops
      neither that folder nor the folders after it. */
  lemma {:induction false} WalkSucceeded(resolve: Generation.Resolver, entries: seq<DirEntry>, ok: RunOracle,
                                         i: nat, fs: set<string>)
    requires i <= |entries|
    ensures Walk(resolve, entries, ok, i, fs).files == fs + SucceededFrom(resolve, entries, ok, i)
    decreases |entries| - i
  {
    if i < |entries| {
      var mid := NextFiles(resolve, entries, ok, i, fs);
      WalkSucceeded(resolve, entries, ok, i + 1, mid);
      WalkSucceededStep(resolve, entries, ok, i, fs, mid);
    }
  }

  /** The files the entry at `i` leaves for the rest of the walk. */
  function NextFiles(resolve: Generation.Resolver, entries: seq<DirEntry>, ok: RunOracle, i: nat,
                     fs: set<string>): (mid: set<string>)
    requires i < |entries|
    ensures mid == fs + (if entries[i].isDir
                         then Generation.FolderSucceeded(resolve, CategoryFolder(entries[i]), entries[i].manifest, ok(i))
                         else {})
  {
    var e := entries[i];
    if e.isDir then
      Generation.ProcessSucceeded(resolve, CategoryFolder(e), e.manifest, ok(i), fs);
      Generation.ProcessCategory(resolve, CategoryFolder(e), e.manifest, ok(i), fs).files
    else fs
  }

  /** One entry of the walk, then the rest from the files it leaves. */
  lemma WalkSucceededStep(resolve: Generation.Resolver, entries: seq<DirEntry>, ok: RunOracle, i: nat,
                          fs: set<string>, mid: set<string>)
    requires i < |entries| && mid == NextFiles(resolve, entries, ok, i, fs)
    requires Walk(resolve, entries, ok, i + 1, mid).files == mid + SucceededFrom(resolve, entries, ok, i + 1)
    ensures Walk(resolve, entries, ok, i, fs).files == fs + SucceededFrom(resolve, entries, ok, i)
  {
    if !entries[i].isDir {
      WalkFileStep(resolve, entries, ok, i, fs);
    }
  }

  /** An entry that is not a directory is passed over. */
  lemma WalkFileStep(resolve: Generation.Resolver, entries: seq<DirEntry>, ok: RunOracle, i: nat, fs: set<string>)
    requires i < |entries| && !entries[i].isDir
    ensures Walk(resolve, entries, ok, i, fs) == Walk(resolve, entries, ok, i + 1, fs)
    ensures SucceededFrom(resolve, entries, ok, i) == SucceededFrom(resolve, entries, ok, i + 1)
  {
  }

  /** `main()` ends with exactly the old files plus every file whose render
      succeeds, and `total_generated` counts those that did not exist. */
  lemma MainSucceeded(resolve: Generation.Resolver, entries: seq<DirEntry>, ok: RunOracle, fs: set<string>)
    ensures Main(resolve, true, entries, ok, fs).files == fs + SucceededFrom(resolve, entries, ok, 0)
    ensures Main(resolve, true, entries, ok, fs).totalGenerated == |SucceededFrom(resolve, entries, ok, 0) - fs|
  {
    WalkSucceeded(resolve, entries, ok, 0, fs);
    var s := Main(resolve, true, entries, ok, fs);
    assert s.files - fs == SucceededFrom(resolve, entries, ok, 0) - fs;
  }

  /** The printed count of each folder: a directory entry puts its own
      folder's count first and the counts of the later folders after it,
      starting from the files it leaves; any other entry adds no count. */
  lemma WalkCounts(resolve: Generation.Resolver, entries: seq<DirEntry>, ok: RunOracle, i: nat, fs: set<string>)
    requires i < |entries|
    ensures entries[i].isDir ==>
              var c := Generation.ProcessCategory(resolve, CategoryFolder(entries[i]), entries[i].manifest,
                                                  ok(i), fs);
              Walk(resolve, entries, ok, i, fs).counts == [c.count] + Walk(resolve, entries, ok, i + 1, c.files).counts
    ensures !entries[i].isDir ==> Walk(resolve, entries, ok, i, fs).counts == Walk(resolve, entries, ok, i + 1, fs).counts
  {
  }

  /** When the first entry is a directory, the first count `main()` prints
      is the number of icons its folder generated, which is the number of
      its successful files that did not exist. */
  lemma MainFirstCount(resolve: Generation.Resolver, entries: seq<DirEntry>, ok: RunOracle, fs: set<string>)
    requires entries != [] && entries[0].isDir
    ensures var e := entries[0];
            Main(resolve, true, entries, ok, fs).counts[0]
            == |Generation.FolderSucceeded(resolve, CategoryFolder(e), e.manifest, ok(0)) - fs|
  {
    var e := entries[0];
    WalkCounts(resolve, entries, ok, 0, fs);
    Generation.ProcessSucceeded(resolve, CategoryFolder(e), e.manifest, ok(0), fs);
  }

  /** When every file asked for exists, a run creates nothing. */
  lemma {:induction false} WalkNothingMissing(resolve: Generation.Resolver, entries: seq<DirEntry>,
                                              ok: RunOracle, i: nat, fs: set<string>)
    requires i <= |entries|
    requires TargetsFrom(resolve, entries, i) <= fs
    ensures Walk(resolve, entries, ok, i, fs).files == fs
    ensures Walk(resolve, entries, ok, i, fs).totalGenerated == 0
    decreases |entries| - i
  {
    if i < |entries| {
      var e := entries[i];
      if e.isDir {
        Generation.ProcessNothingMissing(resolve, CategoryFolder(e), e.manifest, ok(i), fs);
      }
      WalkNothingMissing(resolve, entries, ok, i + 1, fs);
    }
  }

  /** Running the generator again after a run in which every render
      succeeded generates nothing and leaves the files as they are, while
      still visiting every category. */
  lemma RunIdempotent(resolve: Generation.Resolver, entries: seq<DirEntry>, ok: RunOracle, again: RunOracle,
                      fs: set<string>)
    requires AllSucceed(ok)
    ensures var first := Main(resolve, true, entries, ok, fs);
            && Main(resolve, true, entries, again, first.files).files == first.files
            && Main(resolve, true, entries, again, first.files).totalGenerated == 0
            && Main(resolve, true, entries, again, first.files).categoriesProcessed == first.categoriesProcessed
  {
    var first := Main(resolve, true, entries, ok, fs);
    WalkAllSucceed(resolve, entries, ok, 0, fs);
    WalkNothingMissing(resolve, entries, again, 0, first.files);
  }
}

=== FILE: scenario.dfy ===
/** A whole run on a small folder tree: `objectives` lists `alpha` and
    `beta.png`, `unknown-cat` lists `gamma`, nothing exists yet and every
    render succeeds. */
module Scenario {
  import opened Results
  import Colors
  import Paths
  import Manifest
  import Styles
  import Generation
  import Runner

  const Objectives := Runner.DirEntry("objectives", true, Some(Manifest.JoinLines(["alpha", "beta.png"])))
  const Unknown := Runner.DirEntry("unknown-cat", true, Some(Manifest.JoinLines(["gamma"])))

  /** `icons-pathfinding/objectives` and `icons-pathfinding/unknown-cat`. */
  const ObjectivesDir := Runner.IconsDir + "/" + "objectives"
  const UnknownDir := Runner.IconsDir + "/" + "unknown-cat"

  const AlphaPath := ObjectivesDir + "/" + "alpha.png"
  const BetaPath := ObjectivesDir + "/" + "beta.png"
  const GammaPath := UnknownDir + "/" + "gamma.png"

  lemma ObjectivesFolder()
    ensures Runner.CategoryFolder(Objectives) == ObjectivesDir
  {
    JoinUnder(Runner.IconsDir, "objectives");
  }

  lemma UnknownFolder()
    ensures Runner.CategoryFolder(Unknown) == UnknownDir
  {
    JoinUnder(Runner.IconsDir, "unknown-cat");
  }

  /** Lower-case letters and dots make a well-formed name. */
  lemma PlainName(s: string)
    requires s != []
    requires forall k :: 0 <= k < |s| ==> 'a' <= s[k] <= 'z' || s[k] == '.'
    ensures Manifest.IsName(s)
  {
  }

  lemma ObjectivesNames()
    ensures Manifest.ReadNames(Objectives.manifest.value) == ["alpha", "beta.png"]
  {
    var names := ["alpha", "beta.png"];
    PlainName(names[0]);
    PlainName(names[1]);
    Manifest.ReadNamesJoinLines(names);
  }

  lemma UnknownNames()
    ensures Manifest.ReadNames(Unknown.manifest.value) == ["gamma"]
  {
    var names := ["gamma"];
    PlainName(names[0]);
    Manifest.ReadNamesJoinLines(names);
  }

  /** A five-letter name without a dot is left alone. */
  lemma NormalizeFiveLetters(s: string)
    requires |s| == 5 && '.' !in s
    ensures Manifest.Normalize(s) == s
  {
    assert s[..4][0] != Manifest.Png[0];
    assert s[1..][..4][0] != Manifest.Png[0];
    assert s[1..][1..] == s[2..];
    assert Manifest.Normalize(s[2..]) == s[2..];
    assert Manifest.Normalize(s[1..]) == [s[1]] + s[2..];
    assert [s[0]] + ([s[1]] + s[2..]) == s;
  }

  lemma NormalizeBeta()
    ensures Manifest.Normalize("beta") == "beta"
    ensures Manifest.Normalize("beta.png") == "beta"
  {
    Manifest.NormalizeAbsorbsSuffix("beta");
    assert "beta.png" == "beta" + Manifest.Png;
    assert "beta"[..4][0] != Manifest.Png[0];
    assert "beta"[1..] == "eta";
  }

  lemma TargetsOfTwo(resolve: Generation.Resolver, folder: string, a: string, b: string)
    ensures Generation.Targets(resolve, folder, [a, b])
            == {Generation.FileOf(resolve, folder, a), Generation.FileOf(resolve, folder, b)}
  {
    assert [a, b][1..] == [b];
    TargetsOfOne(resolve, folder, b);
  }

  lemma TargetsOfOne(resolve: Generation.Resolver, folder: string, a: string)
    ensures Generation.Targets(resolve, folder, [a]) == {Generation.FileOf(resolve, folder, a)}
  {
    assert [a][1..] == [];
  }

  /** Joining a relative file name to a folder not ending in `/`. */
  lemma JoinUnder(dir: string, file: string)
    requires dir != [] && dir[|dir| - 1] != '/'
    requires file != [] && file[0] != '/'
    ensures Paths.Join(dir, file) == dir + "/" + file
  {
  }

  lemma AlphaOutput()
    ensures Generation.OutputPath(ObjectivesDir, "alpha") == AlphaPath
  {
    NormalizeFiveLetters("alpha");
    assert Manifest.Normalize("alpha") + Manifest.Png == "alpha.png";
    JoinUnder(ObjectivesDir, "alpha.png");
  }

  lemma BetaOutput()
    ensures Generation.OutputPath(ObjectivesDir, "beta.png") == BetaPath
  {
    NormalizeBeta();
    assert Manifest.Normalize("beta.png") + Manifest.Png == "beta.png";
    JoinUnder(ObjectivesDir, "beta.png");
  }

  lemma GammaOutput()
    ensures Generation.OutputPath(UnknownDir, "gamma") == GammaPath
  {
    NormalizeFiveLetters("gamma");
    assert Manifest.Normalize("gamma") + Manifest.Png == "gamma.png";
    JoinUnder(UnknownDir, "gamma.png");
  }

  lemma ObjectivesTargets(resolve: Generation.Resolver)
    ensures Generation.FolderTargets(resolve, Runner.CategoryFolder(Objectives), Objectives.manifest)
            == {resolve(AlphaPath), resolve(BetaPath)}
  {
    ObjectivesFolder();
    ObjectivesNames();
    AlphaOutput();
    BetaOutput();
    TargetsOfTwo(resolve, ObjectivesDir, "alpha", "beta.png");
  }

  lemma UnknownTargets(resolve: Generation.Resolver)
    ensures Generation.FolderTargets(resolve, Runner.CategoryFolder(Unknown), Unknown.manifest)
            == {resolve(GammaPath)}
  {
    UnknownFolder();
    UnknownNames();
    GammaOutput();
    TargetsOfOne(resolve, UnknownDir, "gamma");
  }

  lemma LaterTargets(resolve: Generation.Resolver)
    ensures Runner.TargetsFrom(resolve, [Objectives, Unknown], 1) == {resolve(GammaPath)}
  {
    var entries := [Objectives, Unknown];
    assert entries[1] == Unknown;
    UnknownTargets(resolve);
    assert Runner.TargetsFrom(resolve, entries, 2) == {};
  }

  lemma ScenarioTargets(resolve: Generation.Resolver)
    ensures Runner.TargetsFrom(resolve, [Objectives, Unknown], 0)
            == {resolve(AlphaPath), resolve(BetaPath), resolve(GammaPath)}
  {
    var entries := [Objectives, Unknown];
    assert entries[0] == Objectives;
    ObjectivesTargets(resolve);
    LaterTargets(resolve);
    assert Runner.TargetsFrom(resolve, entries, 0)
           == {resolve(AlphaPath), resolve(BetaPath)} + {resolve(GammaPath)};
  }

  /** The three output paths are different strings. */
  lemma ThreePaths()
    ensures AlphaPath != BetaPath && AlphaPath != GammaPath && BetaPath != GammaPath
  {
    assert AlphaPath[29] != BetaPath[29];
    assert AlphaPath[18] != GammaPath[18] && BetaPath[18] != GammaPath[18];
  }

  lemma ScenarioDirCount()
    ensures Runner.DirCount([Objectives, Unknown]) == 2
  {
    var entries := [Objectives, Unknown];
    assert Runner.DirCount([Unknown]) == 1 by {
      assert [Unknown][1..] == [];
    }
    assert entries[1..] == [Unknown];
  }

  /** Three paths that name three different files. */
  predicate ThreeFiles(resolve: Generation.Resolver) {
    && resolve(AlphaPath) != resolve(BetaPath)
    && resolve(AlphaPath) != resolve(GammaPath)
    && resolve(BetaPath) != resolve(GammaPath)
  }

  /** Three different files make a set of three. */
  lemma ThreeDistinct(a: string, b: string, c: string)
    requires a != b && a != c && b != c
    ensures |{a, b, c}| == 3
  {
    assert {a, b, c} == {a, b} + {c} && c !in {a, b};
  }

  /** The run creates exactly the three icons, two in `objectives` and one
      in `unknown-cat`, and visits both folders. */
  lemma EndToEnd(resolve: Generation.Resolver, ok: Runner.RunOracle)
    requires Runner.AllSucceed(ok)
    requires ThreeFiles(resolve)
    ensures Runner.Main(resolve, true, [Objectives, Unknown], ok, {}).files
            == {resolve(AlphaPath), resolve(BetaPath), resolve(GammaPath)}
    ensures Runner.Main(resolve, true, [Objectives, Unknown], ok, {}).totalGenerated == 3
    ensures Runner.Main(resolve, true, [Objectives, Unknown], ok, {}).categoriesProcessed == 2
  {
    var entries := [Objectives, Unknown];
    var run := Runner.Main(resolve, true, entries, ok, {});
    assert run == Runner.Walk(resolve, entries, ok, 0, {}) by {
      assert entries[0..] == entries;
    }
    Runner.WalkAllSucceed(resolve, entries, ok, 0, {});
    ScenarioTargets(resolve);
    assert run.files == {resolve(AlphaPath), resolve(BetaPath), resolve(GammaPath)};
    ThreeDistinct(resolve(AlphaPath), resolve(BetaPath), resolve(GammaPath));
    assert run.files - {} == run.files;
    ScenarioDirCount();
  }

  /** On a file system where every path is its own file, the three paths
      are three files, so the run above applies. */
  lemma LiteralPathsAreThreeFiles()
    ensures ThreeFiles(p => p)
  {
    ThreePaths();
  }

  lemma UnknownCatUnlisted()
    ensures "unknown-cat" !in Styles.CategoryStyles
  {
    assert forall c :: c in Styles.CategoryStyles ==> c[0] != 'u';
  }

  /** The `objectives` icons are yellow stars labelled `OBJ`; the
      `unknown-cat` icons get the fallback grey circle, colour left as text. */
  lemma ScenarioStyles(resolve: Generation.Resolver, ok: Generation.Oracle, fs: set<string>)
    ensures Generation.ProcessCategory(resolve, Runner.CategoryFolder(Objectives), Objectives.manifest, ok, fs).style
              == Styles.Style(Colors.Rgb(255, 235, 59), "star", "OBJ")
    ensures Generation.ProcessCategory(resolve, Runner.CategoryFolder(Unknown), Unknown.manifest, ok, fs).style
              == Styles.Style(Colors.Hex("#9e9e9e"), "circle", "???")
  {
    Runner.CategoryFolderOf(Objectives);
    Runner.CategoryFolderOf(Unknown);
    Generation.CategoryStyle(resolve, Runner.CategoryFolder(Objectives), Objectives.manifest, ok, fs);
    Generation.CategoryStyle(resolve, Runner.CategoryFolder(Unknown), Unknown.manifest, ok, fs);
    Styles.ObjectivesStyle();
    UnknownCatUnlisted();
  }
}

=== FILE: styles.dfy ===
/** The category style table and its lookup with a fallback
    (generate-location-icons.py:10-20 and 118-123). */
module Styles {
  import opened Colors
  import opened Results
  import Text

  /** One row of `CATEGORY_STYLES`: the colour as written, the shape name
      and the symbol code. */
  datatype Entry = Entry(hex: string, shape: string, text: string)

  const CategoryStyles: map<string, Entry> := map[
    "enemies-arcs" := Entry("#ef5350", "diamond", "ARC"),
    "extraction" := Entry("#26c6da", "arrow_up", "EXIT"),
    "spawn" := Entry("#ffffff", "arrow_down", "DROP"),
    "locked-rooms" := Entry("#fbc02d", "padlock", "LOCK"),
    "objectives" := Entry("#ffeb3b", "star", "OBJ"),
    "loot-containers" := Entry("#e0e0e0", "box", "LOOT"),
    "supply-stations" := Entry("#bdbdbd", "radio", "SUP"),
    "resources-plants" := Entry("#66bb6a", "leaf", "BIO"),
    "other" := Entry("#9e9e9e", "circle", "???")
  ]

  /** The style a category's icons are drawn with. */
  datatype Style = Style(color: Color, shape: string, text: string)

  /** The style of a category the table does not know. Its colour is left
      as the hex string: the source does not pass it through `hex_to_rgb`. */
  const Fallback: Style := Style(Hex("#9e9e9e"), "circle", "???")

  /** `#` and six lower-case hexadecimal digits. */
  predicate IsHexColour(s: string) {
    |s| == 7 && s[0] == '#' && forall k :: 1 <= k < 7 ==> IsLowerHexDigit(s[k])
  }

  /** A `#rrggbb` colour decodes to its three digit pairs. */
  lemma HexColourDecodes(s: string)
    requires IsHexColour(s)
    ensures StartsWithSixHexDigits(s[1..])
    ensures HexToRgb(s) == Ok(Rgb(PairValue(s[1..], 0), PairValue(s[1..], 2), PairValue(s[1..], 4)))
  {
    var h := s[1..];
    assert s == "#" + h;
    assert StartsWithSixHexDigits(h) by {
      forall k | 0 <= k < 6 ensures IsHexDigit(h[k]) {
        assert IsLowerHexDigit(s[k + 1]);
      }
    }
    assert Text.LStrip(s, '#') == h;
    SixDigitsDecode(s, h);
  }

  /** The colours written in the table. */
  const TableColours: set<string> :=
    {"#ef5350", "#26c6da", "#ffffff", "#fbc02d", "#ffeb3b", "#e0e0e0", "#bdbdbd", "#66bb6a", "#9e9e9e"}

  lemma TableColoursAreHex()
    ensures forall c :: c in CategoryStyles ==> IsHexColour(CategoryStyles[c].hex)
  {
    assert forall c :: c in CategoryStyles ==> CategoryStyles[c].hex in TableColours;
    forall h | h in TableColours
      ensures IsHexColour(h)
    {
    }
  }

  /** The colour of every table row converts without raising, to a byte
      colour that prints back as the row's text. */
  lemma TableColourDecodes(category: string)
    requires category in CategoryStyles
    ensures && HexToRgb(CategoryStyles[category].hex).Ok?
            && IsByteRgb(HexToRgb(CategoryStyles[category].hex).value)
            && RgbToHex(HexToRgb(CategoryStyles[category].hex).value) == CategoryStyles[category].hex
  {
    var hex := CategoryStyles[category].hex;
    TableColoursAreHex();
    assert hex == "#" + hex[1..];
    EncodeDecode(hex[1..]);
  }

  /** The style for the category a folder is named after. Total: known
      names get their table row with the colour converted to RGB, every
      other name gets `Fallback`. */
  function Lookup(category: string): (s: Style)
    ensures s.color.Rgb? <==> category in CategoryStyles
    ensures category !in CategoryStyles ==> s == Fallback
    ensures category in CategoryStyles ==>
              && s.shape == CategoryStyles[category].shape
              && s.text == CategoryStyles[category].text
              && IsByteRgb(s.color)
              && RgbToHex(s.color) == CategoryStyles[category].hex
  {
    if category !in CategoryStyles then Fallback
    else
      var e := CategoryStyles[category];
      TableColourDecodes(category);
      Style(HexToRgb(e.hex).value, e.shape, e.text)
  }

  lemma DecodeObjectivesColour()
    ensures HexToRgb("#ffeb3b") == Ok(Rgb(255, 235, 59))
  {
    HexColourDecodes("#ffeb3b");
    assert PairValue("ffeb3b", 0) == 255 && PairValue("ffeb3b", 2) == 235 && PairValue("ffeb3b", 4) == 59;
  }

  lemma DecodeGreyColour()
    ensures HexToRgb("#9e9e9e") == Ok(Rgb(158, 158, 158))
  {
    HexColourDecodes("#9e9e9e");
    assert PairValue("9e9e9e", 0) == 158 && PairValue("9e9e9e", 2) == 158 && PairValue("9e9e9e", 4) == 158;
  }

  /** `objectives` is drawn as a yellow star labelled `OBJ`. */
  lemma ObjectivesStyle()
    ensures Lookup("objectives") == Style(Rgb(255, 235, 59), "star", "OBJ")
  {
    assert "objectives" in CategoryStyles && CategoryStyles["objectives"] == Entry("#ffeb3b", "star", "OBJ");
    DecodeObjectivesColour();
  }

  /** The `other` row: a grey circle labelled `???`, colour converted. */
  lemma OtherStyle()
    ensures Lookup("other") == Style(Rgb(158, 158, 158), "circle", "???")
  {
    assert "other" in CategoryStyles && CategoryStyles["other"] == Entry("#9e9e9e", "circle", "???");
    DecodeGreyColour();
  }

  /** An unknown category and the `other` row look alike but differ in
      representation: the same colour as a hex string and as a tuple. */
  lemma FallbackVersusOther(category: string)
    requires category !in CategoryStyles
    ensures Lookup(category).color == Hex("#9e9e9e")
    ensures Lookup(category) != Lookup("other")
    ensures HexToRgb(Lookup(category).color.code) == Ok(Lookup("other").color)
    ensures Lookup(category).shape == Lookup("other").shape
    ensures Lookup(category).text == Lookup("other").text
  {
    OtherStyle();
    DecodeGreyColour();
  }
}

=== FILE: text.dfy ===
/** The Python string primitives the generator relies on: `str.isspace`,
    `str.strip`, `str.lstrip(c)` and slicing with clamped bounds. */
module Text {

  /** Python's `str.isspace`: the characters whose bidirectional class is
      WS, B or S, or whose general category is Zs. */
  predicate IsSpace(c: char) {
    || ('\t' <= c <= '\r')
    || ('\U{1C}' <= c <= '\U{1F}')
    || c == ' '
    || c == '\U{85}'
    || c == '\U{A0}'
    || c == '\U{1680}'
    || ('\U{2000}' <= c <= '\U{200A}')
    || c == '\U{2028}'
    || c == '\U{2029}'
    || c == '\U{202F}'
    || c == '\U{205F}'
    || c == '\U{3000}'
  }

  /** The 29 characters `str.isspace` accepts, in code-point order. */
  const SpaceChars: string :=
    "\U{9}\U{A}\U{B}\U{C}\U{D}\U{1C}\U{1D}\U{1E}\U{1F} \U{85}\U{A0}\U{1680}"
    + "\U{2000}\U{2001}\U{2002}\U{2003}\U{2004}\U{2005}\U{2006}\U{2007}\U{2008}\U{2009}\U{200A}"
    + "\U{2028}\U{2029}\U{202F}\U{205F}\U{3000}"

  /** `IsSpace` holds for exactly the characters of the table. */
  lemma IsSpaceTable()
    ensures |SpaceChars| == 29
    ensures forall c :: IsSpace(c) <==> c in SpaceChars
  {
    forall c | IsSpace(c)
      ensures c in SpaceChars
    {
      if '\t' <= c <= '\r' {
        assert SpaceChars[c as int - 9] == c;
      } else if '\U{1C}' <= c <= '\U{1F}' {
        assert SpaceChars[c as int - 0x1C + 5] == c;
      } else if '\U{2000}' <= c <= '\U{200A}' {
        assert SpaceChars[c as int - 0x2000 + 13] == c;
      }
    }
  }

  predicate AllSpace(s: string) {
    forall k :: 0 <= k < |s| ==> IsSpace(s[k])
  }

  /** Neither end of `s` is whitespace: what `str.strip` leaves behind. */
  predicate IsStripped(s: string) {
    s == [] || (!IsSpace(s[0]) && !IsSpace(s[|s| - 1]))
  }

  /** Python's `s.strip()` with no argument: whitespace is dropped from the
      front, then from the back, until neither end is whitespace. */
  function Strip(s: string): (r: string)
    ensures IsStripped(r)
    ensures |r| <= |s|
    ensures r == [] <==> AllSpace(s)
    ensures IsStripped(s) ==> r == s
  {
    if s != [] && IsSpace(s[0]) then
      assert AllSpace(s) <==> AllSpace(s[1..]) by {
        if AllSpace(s[1..]) {
          forall k | 0 < k < |s| ensures IsSpace(s[k]) {
            assert s[k] == s[1..][k - 1];
          }
        }
      }
      Strip(s[1..])
    else if s != [] && IsSpace(s[|s| - 1]) then
      assert s[..|s| - 1][0] == s[0];
      Strip(s[..|s| - 1])
    else s
  }

  /** `r` is `s[i..j]` with only whitespace before `i` and after `j`. */
  predicate TrimmedAt(s: string, r: string, i: nat, j: nat) {
    i <= j <= |s| && r == s[i..j] && AllSpace(s[..i]) && AllSpace(s[j..])
  }

  /** `Strip(s)` is `s` less a run of whitespace at each end. */
  lemma {:induction false} StripIsSlice(s: string)
    ensures exists i: nat, j: nat :: TrimmedAt(s, Strip(s), i, j)
  {
    if s != [] && IsSpace(s[0]) {
      StripIsSlice(s[1..]);
      var i: nat, j: nat :| TrimmedAt(s[1..], Strip(s[1..]), i, j);
      TrimmedFront(s, Strip(s), i, j);
    } else if s != [] && IsSpace(s[|s| - 1]) {
      StripIsSlice(s[..|s| - 1]);
      var i: nat, j: nat :| TrimmedAt(s[..|s| - 1], Strip(s[..|s| - 1]), i, j);
      TrimmedBack(s, Strip(s), i, j);
    } else {
      assert TrimmedAt(s, Strip(s), 0, |s|);
    }
  }

  /** A leading whitespace character joins the run before `i`. */
  lemma TrimmedFront(s: string, r: string, i: nat, j: nat)
    requires s != [] && IsSpace(s[0])
    requires TrimmedAt(s[1..], r, i, j)
    ensures TrimmedAt(s, r, i + 1, j + 1)
  {
    assert s[1..][i..j] == s[i + 1..j + 1];
    assert s[j + 1..] == s[1..][j..];
    forall k | 0 < k <= i
      ensures IsSpace(s[k])
    {
      assert s[k] == s[1..][..i][k - 1];
    }
  }

  /** A trailing whitespace character joins the run after `j`. */
  lemma TrimmedBack(s: string, r: string, i: nat, j: nat)
    requires s != [] && IsSpace(s[|s| - 1])
    requires TrimmedAt(s[..|s| - 1], r, i, j)
    ensures TrimmedAt(s, r, i, j)
  {
    var t := s[..|s| - 1];
    assert t[i..j] == s[i..j];
    assert t[..i] == s[..i];
    forall k | j <= k < |t|
      ensures IsSpace(s[k])
    {
      assert s[k] == t[j..][k - j];
    }
  }

  /** Every character of `Strip(s)` is a character of `s`. */
  lemma {:induction false} StripKeepsChars(s: string, c: char)
    requires c in Strip(s)
    ensures c in s
  {
    if s != [] && IsSpace(s[0]) {
      StripKeepsChars(s[1..], c);
    } else if s != [] && IsSpace(s[|s| - 1]) {
      StripKeepsChars(s[..|s| - 1], c);
    }
  }

  /** Python's `s.lstrip(c)` for a single character `c`. */
  function LStrip(s: string, c: char): (r: string)
    ensures |r| <= |s| && r == s[|s| - |r|..]
    ensures forall k :: 0 <= k < |s| - |r| ==> s[k] == c
    ensures r == [] || r[0] != c
  {
    if s != [] && s[0] == c then LStrip(s[1..], c) else s
  }

  /** Python's `s[i:j]` for non-negative bounds: out-of-range bounds are
      clamped to the length instead of raising. */
  function Slice(s: string, i: nat, j: nat): (r: string)
    requires i <= j
    ensures j <= |s| ==> r == s[i..j]
    ensures |s| <= i ==> r == []
    ensures i <= |s| <= j ==> r == s[i..]
  {
    var lo := if i <= |s| then i else |s|;
    var hi := if j <= |s| then j else |s|;
    s[lo..hi]
  }

  /** `pat` occurs in `s` starting at index `i`. */
  predicate OccursAt(s: string, pat: string, i: nat) {
    i + |pat| <= |s| && s[i..i + |pat|] == pat
  }

  /** Python's `pat in s`. */
  predicate Contains(s: string, pat: string) {
    exists i: nat | i <= |s| :: OccursAt(s, pat, i)
  }
}
